=== FILE: README.md ===
# Heap sort, byte-view helpers and the Fermat test, modelled in Dafny

This project models the three small pure algorithms of the repository and proves what they promise.

- **Heap sort** (`heap_sort.py`). `heapify` sifts a value down an implicit binary tree stored in a
  list prefix of length `n`. `heap_sort` builds a max-heap and then moves the maximum to the end, one
  element at a time. The Python list is sorted in place; here it is a `seq<int>` value, and each step
  returns the new contents (`heap_sort.dfy`, module `HeapSort`).
- **Byte and text rendering** (`encode_view.py`):
  - `bytes_to_hex` and `bytes_to_binary` (`encode_view_bytes.dfy`, `ByteViews`);
  - `char_info` and `per_char_encoding` (`encode_view_chars.dfy`, `CharViews`);
  - `format_table` (`encode_view_table.dfy`, `TableFormat`);
  - `list_encodings`, `list_errors_policies` and the selection rule of `display_options_menu`
    (`encode_view_menu.dfy`, `OptionsMenu`).

  The codec (`str.encode` with an encoding and error policy) is a parameter
  `encode: char -> Option<seq<Byte>>`, where `None` stands for UnicodeEncodeError. The Unicode name
  table is a parameter `name: char -> Option<string>`, where `None` stands for the ValueError of
  `unicodedata.name`. Python's `str.join`, `str.split` on one character, `str.ljust` and `c * n`
  are modelled in `text.dfy` (`Text`). `Option` and `Result` are in `wrappers.dfy`.
- **Fermat primality test** (`fermat_primality_test.py`). The random bases become an input
  sequence `witnesses`, one per round, so `k` is its length. Python's `pow(a, e, m)` is `ModPow`,
  binary exponentiation proved equal to `a^e mod m` (`number_theory.dfy`, `NumberTheory`). The
  reported probability `passed_tests / k` is the exact `real` quotient (`fermat.dfy`,
  `FermatTest`). Fermat's little theorem is proved from the binomial theorem and Euclid's lemma. It
  shows that the verdict "not prime" is right for any non-negative number of rounds.

For each rendering there is a parser in the model: `ParseHex`, `ParseBinary` and `ParseCharInfo`.
The lemmas show that each rendering reads back to its input, and that each parsed string is the
rendering of what it parses to. The parsers accept only canonical renderings: `ParseCharInfo`, for
example, rejects a code point written with fewer than four digits or with a zero beyond the padding,
and one that is not the code point of the quoted character.

`display_options_menu` reads its answer with `int(choice)`. CPython (3.11 and the 2022 security
releases of earlier versions) refuses to convert a string of more than 4300 digits and raises
ValueError. The model follows that default limit: `Select` and `Menu` return `Result` values, and
such a long digit string gives `Err(DigitLimitExceeded)`. An unknown menu type gives
`Err(UnknownMenuType)`.

## Model

| member | source | states |
|---|---|---|
| HeapSort.Largest | heap_sort.py:2-10 | the index picked is i or a child of i inside the prefix, it holds the largest of the three values, and it differs from i only when a child is strictly larger |
| HeapSort.Heapify | heap_sort.py:1-14 | the result has the input's length; the first n elements are a permutation of the input's first n; positions from n on are unchanged; only positions in the subtree rooted at i can change; the recursion ends because n - i decreases |
| HeapSort.HeapifyRestoresHeap | heap_sort.py:1-14 | if both child subtrees of i are max-heaps within the prefix n, then after heapify the whole subtree rooted at i is a max-heap, and its root holds the largest of i and its children |
| HeapSort.HeapRootIsMax | heap_sort.py:20-22 | in a max-heap prefix every element is at most the root |
| HeapSort.BuildMaxHeap | heap_sort.py:18-22 | the build loop returns a permutation of the input that is a max-heap over its whole length, with the maximum at index 0 |
| HeapSort.ExtractStep | heap_sort.py:26-27 | one extraction step (swap the root with position i, then sift down within the first i) permutes the list |
| HeapSort.ExtractStepKeepsHeap | heap_sort.py:25-27 | after an extraction step the first i elements are again a max-heap |
| HeapSort.ExtractStepGrowsSortedTail | heap_sort.py:25-27 | the sorted tail grows to start at i, and every element before i is at most every element of the tail |
| HeapSort.HeapSort | heap_sort.py:17-27 | the output is a sorted permutation of the input, and a list of length 0 or 1 is returned unchanged |
| HeapSort.SortedPermutationUnique | heap_sort.py:17-27 | two sorted permutations of the same list are equal, so the sorted output is fully determined by the input |
| HeapSort.SortExample | heap_sort.py:31-33 | [2, 8, 5, 3, 9, 1] sorts to [1, 2, 3, 5, 8, 9] |
| ByteViews.Hexlify | encode_view.py:36 | `hexlify` gives two characters per byte; the pairs of its output are the bytes' hex pairs in order (see ByteViews.PairsOfHexlify) |
| ByteViews.PairsOfHexlify | encode_view.py:36-37 | cutting the hexlified bytes into two-character slices gives each byte's hex pair, in order |
| ByteViews.Pairs | encode_view.py:37 | the slicing `hx[i:i+2]`; it has no contract of its own, and ByteViews.PairsOfHexlify states what it yields on hexlified bytes |
| ByteViews.HexPair | encode_view.py:36 | each byte becomes exactly two lower-case hex digits whose value is the byte |
| ByteViews.BytesToHex | encode_view.py:32-37 | no bytes give ""; otherwise the length is 3n - 1, the token of byte k is at offset 3k, and spaces are exactly the positions 3k + 2 |
| ByteViews.HexRoundTrip | encode_view.py:32-37 | splitting the hex string on spaces and parsing each pair gives back exactly the original bytes |
| ByteViews.HexCanonical | encode_view.py:32-37 | any string that parses as spaced hex pairs is the hex rendering of the bytes it parses to |
| ByteViews.BitsMostSignificantFirst | encode_view.py:44 | character j of an 8-bit token is bit 7 - j of the byte, so the most significant bit comes first |
| ByteViews.BinaryToken | encode_view.py:44 | `f"{byte:08b}"` is exactly eight bit characters; ByteViews.BitsMostSignificantFirst and ByteViews.BitsRoundTrip state which bits and that they read back to the byte |
| ByteViews.BitsRoundTrip | encode_view.py:44 | a value below 2^w written in w binary digits reads back to that value |
| ByteViews.BytesToBinary | encode_view.py:40-44 | no bytes give ""; otherwise the length is 9n - 1, the 8-character token of byte k is at offset 9k, and spaces are exactly the positions 9k + 8 |
| ByteViews.BinaryRoundTrip | encode_view.py:40-44 | splitting the binary string on spaces and parsing each token gives back exactly the original bytes |
| ByteViews.BinaryCanonical | encode_view.py:40-44 | any string that parses as spaced 8-bit tokens is the binary rendering of the bytes it parses to |
| CharViews.CodePointField | encode_view.py:57 | the code-point field has at least four upper-case hex digits, its value is the code point, and it has no leading zero beyond the padding to four |
| CharViews.CodePointFieldCanonical | encode_view.py:57 | any field of at least four upper-case hex digits with no zero beyond the padding is the `{cp:04X}` rendering of its value |
| CharViews.NameLabel | encode_view.py:53-56 | the Unicode name, or "<unassigned>" where the name table raises ValueError; it has no contract of its own, and CharViews.CharInfoRoundTrip states that the label shows it |
| CharViews.CharInfo | encode_view.py:47-57 | the label starts with the quoted character followed by " U+" and at least four upper-case hex digits |
| CharViews.CharInfoRoundTrip | encode_view.py:47-57 | the label reads back to the character, its code point, and the name shown, which is the Unicode name or "<unassigned>" when there is none |
| CharViews.CharInfoCanonical | encode_view.py:47-57 | any string that parses as a label carries its quoted character's own code point and is exactly the label `char_info` writes for that character and name |
| CharViews.ForeignCodePointRejected | encode_view.py:52-57 | "'A' U+0042 X" is not a label: `char_info('A')` always writes U+0041 |
| CharViews.UnpaddedCodePointRejected | encode_view.py:57 | "'A' U+41 X" is not a label: the code point is always padded to four digits |
| CharViews.CharRow | encode_view.py:74-78 | the row built for one character; it has no contract of its own, and CharViews.CharRowShape states it |
| CharViews.CharRowShape | encode_view.py:74-78 | the row for a character holds its label; a codec failure gives count 0 and "<encode error>" in both byte columns, and a success gives the byte count and the hex and binary renderings of the bytes |
| CharViews.RowPerChar | encode_view.py:72-79 | the loop over the text appends exactly one row per character, the row for character k at index k |
| CharViews.PerCharEncoding | encode_view.py:67-79 | one row per character, in order; a character the codec rejects gets count 0 and "<encode error>" in both byte columns; any other gets its byte count and the hex and binary renderings of its bytes |
| CharViews.ErrorMarkerDoesNotParse | encode_view.py:78 | the error marker is neither a valid hex rendering nor a valid binary rendering, so an error row cannot be mistaken for bytes |
| CharViews.RowRecoversEncoding | encode_view.py:67-79 | from a row alone one recovers what the codec returned for the character, failure included: the hex and binary columns both parse back to it |
| TableFormat.ColumnWidths | encode_view.py:86 | one width per header; TableFormat.ColumnWidthsFit states which width |
| TableFormat.ColumnWidthsFit | encode_view.py:86 | each column width is at least the length of the header and of every row's cell in that column, and equals one of those lengths |
| TableFormat.CellPlacement | encode_view.py:87-88 | in a formatted line, cell i starts after the earlier columns' widths and their three-character bar separators, is followed by spaces up to its column's width, and then by a bar separator unless it is the last |
| TableFormat.FormatRow | encode_view.py:87-88 | `fmt_row`; it has no contract of its own, and TableFormat.CellPlacement and TableFormat.FormatRowWidth state where each cell lands and how wide the line is |
| TableFormat.FormatRowWidth | encode_view.py:87-88 | a formatted line is exactly the sum of the widths plus 3 per separator wide, or empty when there are no columns |
| TableFormat.RuleLine | encode_view.py:89 | the dash rule; it has no contract of its own, and TableFormat.RuleLineWidth states its width |
| TableFormat.RuleLineWidth | encode_view.py:89 | the dash rule line has that same width |
| TableFormat.FormatTable | encode_view.py:82-90 | the table string; it has no contract of its own, and TableFormat.FormatTableLines, TableFormat.TableLinesUniform and TableFormat.CellPlacement state its lines, their width and where each cell sits |
| TableFormat.TableLinesUniform | encode_view.py:86-90 | every line of the table, including header and rule, has the same width |
| TableFormat.LinesAvoidLineBreaks | encode_view.py:86-90 | when no header or cell holds a line break, no line of the table holds one either, so the line breaks of the output are exactly the joins |
| TableFormat.FormatTableLines | encode_view.py:90 | when no cell holds a line break, splitting the output at line breaks gives the header, the rule and one line per row, in order: len(rows) + 2 lines |
| OptionsMenu.OptionLists | encode_view.py:93-112 | 11 encodings with "utf-8" at index 2 and 5 error policies with "strict" at index 0, none listed twice |
| OptionsMenu.Decimal | encode_view.py:130-131 | the number printed beside an option is a digit string without leading zeros whose value is that number |
| OptionsMenu.DecimalValue | encode_view.py:136 | `int(choice)` on a digit string; it has no contract of its own, and OptionsMenu.Decimal and OptionsMenu.DecimalCanonical state that it inverts the printed numeral |
| OptionsMenu.DecimalCanonical | encode_view.py:135-136 | a digit string without leading zeros is the decimal numeral of its value |
| OptionsMenu.DecimalDigits | encode_view.py:130-136 | the numeral of n has at most d digits exactly when n < 10^d, which decides whether `int` accepts a printed number under the digit limit |
| OptionsMenu.Select | encode_view.py:135-141 | a digit string of more than 4300 digits raises the ValueError of `int` (an error result, exactly then); otherwise a digit string d with 1 <= d <= len(options) returns options[d - 1], and anything else returns the default |
| OptionsMenu.SelectPrintedNumber | encode_view.py:130-138 | typing the number printed beside an option selects exactly that option, unless its numeral is longer than the digit limit, when `int` raises |
| OptionsMenu.SelectBounded | encode_view.py:135-141 | a returned answer is always a listed option or the default, and differs from the default only for a valid number |
| OptionsMenu.SelectInjective | encode_view.py:135-138 | with distinct options, two valid inputs that return the same option denote the same number |
| OptionsMenu.Menu | encode_view.py:115-141 | an unknown menu type raises ValueError (an error result, exactly then); for "encoding" and "error" a digit string beyond the digit limit raises, and any other answer is an entry of that menu's list |
| OptionsMenu.MenuChoices | encode_view.py:120-141 | in both menus the printed numbers select their options; an empty line, or a number past the end within the digit limit, selects "utf-8" or "strict"; a number beyond the limit raises |
| NumberTheory.ModPow | fermat_primality_test.py:25 | binary exponentiation modulo m returns a^e mod m, in the range 0 to m - 1 |
| NumberTheory.PrimeDividesFactor | fermat_primality_test.py:44 | Euclid's lemma: a prime that divides k * c with 0 < k < p divides c |
| NumberTheory.FermatLittleUnit | fermat_primality_test.py:25 | Fermat's little theorem: for a prime p and 0 < a < p, a^(p-1) mod p is 1 |
| FermatTest.PassCount | fermat_primality_test.py:17-26 | the pass count is at most k, and it equals k exactly when every base passes |
| FermatTest.PassCountCountsPassingRounds | fermat_primality_test.py:17-26 | the pass count is the number of rounds whose base a has pow(a, n - 1, n) == 1 |
| FermatTest.CountPasses | fermat_primality_test.py:17-26 | the counting loop computes that pass count |
| FermatTest.ScreenedAtLeastFive | fermat_primality_test.py:13-22 | a number that passes the pre-checks is at least 5, so the base range 2 to n - 2 is not empty |
| FermatTest.FermatPrimalityTest | fermat_primality_test.py:3-35 | n <= 1 gives (False, 0.0); 2 and 3 give (True, 1.0); larger multiples of 2 or 3 give (False, 0.0); otherwise no rounds is a ZeroDivisionError, and the verdict is True exactly when every base passes, with probability passed / k |
| FermatTest.VerdictMatchesProbability | fermat_primality_test.py:29-35 | the probability lies between 0 and 1, and the verdict is True exactly when the probability is 1 |
| FermatTest.PrimeVerdict | fermat_primality_test.py:3-35 | a prime is judged "probably prime" with probability 1 whenever there is at least one round or n <= 3 |
| FermatTest.RejectedIsComposite | fermat_primality_test.py:41-44 | a rejected number of at least 2 has a divisor strictly between 1 and itself, so "definitely not prime" is sound for any non-negative number of rounds |
| FermatTest.FermatLiar | fermat_primality_test.py:41-42 | the verdict True can be wrong: the composite 25 with base 7 is judged prime with probability 1 |
| FermatTest.SevenIsProbablyPrime | fermat_primality_test.py:38-39 | the source's example n = 7 is judged prime with probability 1 for any non-empty list of bases in range |

## Left out

- `png_to_jpg.py`. It is a process-pool batch converter: concurrency, directory globbing, and PIL image decode and encode. None of that is pure logic.
- `general_mean_formula.py`. It is floating-point numerics throughout: powers, logarithms, exponentials and infinities.
- `function_inverse.py`. It is a wrapper over a symbolic algebra library and plotting.
- `encode_text`. It is a one-line wrapper over `str.encode` that the core does not call; the per-character codec is the parameter `encode`.
- The I/O of `encode_view.py`: `print_results`, `use_interactive_input`, `use_argparse`, `main`, and the `print`/`input` calls in `display_options_menu`. The line the user types is the `choice` parameter.
- The real codecs and the Unicode name database. They are the parameters `encode` and `name`.
- CharViews.PerCharEncoding: the parameter `encode` stands for a codec that exists. In the source, `per_char_encoding` catches only UnicodeEncodeError; an unknown encoding or error-handler name raises LookupError out of the function, and that error is not modelled.
- The default arguments `menu_type="encoding"` of `display_options_menu` and `k=5` of `fermat_primality_test`. The model's callers always pass the menu type and the list of bases.
- Python strings can hold lone surrogate code points. Dafny's `char` cannot, so those characters are not modelled.
- The `str()` conversion in `format_table`. Cells are modelled as the strings it produces. Rows with fewer cells than headers raise IndexError in the source; the model excludes them by precondition.
- OptionsMenu.Select: the digit limit is CPython's default of 4300; a different `sys.set_int_max_str_digits` setting, or a Python without the limit, is not modelled. Only ASCII digits count as digits. Python's `str.isdigit` also accepts other Unicode digits, and `int` then reads some of them and raises ValueError on others, such as superscripts.
- HeapSort.HeapSort: the elements are `int`. The source sorts any values compared with `>`; for an order that is not total, such as floats that include NaN, its output need not be sorted, and that is not modelled.
- `random.randint` in the Fermat test. The bases are an input sequence, and the precondition puts each in the range 2 to n - 2.
- The float `probability`. It is the exact real quotient; the IEEE rounding of `passed_tests / k` is not modelled.
- FermatTest.RejectedIsComposite: holds only for a non-negative number of rounds. The source accepts a negative `k`: the loop is then empty, `passed_tests / k` is -0.0 rather than a ZeroDivisionError, and `passed_tests == k` is False. So `fermat_primality_test(5, k=-1)` returns (False, -0.0), and the driver would call the prime 5 "definitely not prime". The model's number of rounds is the length of a sequence, so this case is not modelled.
- Module-level example and driver code. Only the heap sort and Fermat examples are restated, as lemmas.

=== FILE: encode_view_bytes.dfy ===
/** The byte renderings of encode_view.py, `bytes_to_hex` and `bytes_to_binary`, together with the
    parsers that read them back. */
module ByteViews {
  import opened Wrappers
  import opened Text
  import NumberTheory

  type Byte = x: int | 0 <= x < 256

  // ---------------------------------------------------------------------------
  // Space-separated token lists, shared by both renderings

  /** One token per byte, in order. */
  function Tokens(bs: seq<Byte>, token: Byte -> string): (ts: seq<string>)
    ensures |ts| == |bs|
    ensures forall k :: 0 <= k < |bs| ==> ts[k] == token(bs[k])
  {
    seq(|bs|, k requires 0 <= k < |bs| => token(bs[k]))
  }

  /** Reads back a space-separated token list: the empty string holds no tokens. */
  function ParseSpaced(s: string, parse: string -> Option<Byte>): Option<seq<Byte>>
  {
    if s == "" then Some([]) else ParseAll(Split(s, ' '), parse)
  }

  function ParseAll(ts: seq<string>, parse: string -> Option<Byte>): (r: Option<seq<Byte>>)
    ensures r.Some? ==> |r.value| == |ts|
  {
    if |ts| == 0 then Some([])
    else match (parse(ts[0]), ParseAll(ts[1..], parse))
      case (Some(b), Some(rest)) => Some([b] + rest)
      case _ => None
  }

  lemma {:induction false} ParseAllTokens(bs: seq<Byte>, token: Byte -> string, parse: string -> Option<Byte>)
    requires forall b: Byte :: parse(token(b)) == Some(b)
    ensures ParseAll(Tokens(bs, token), parse) == Some(bs)
    decreases |bs|
  {
    if |bs| > 0 {
      ParseAllTokens(bs[1..], token, parse);
      assert Tokens(bs, token)[1..] == Tokens(bs[1..], token);
      assert bs == [bs[0]] + bs[1..];
    }
  }

  lemma {:induction false} ParsedTokensRender(ts: seq<string>, bs: seq<Byte>, token: Byte -> string, parse: string -> Option<Byte>)
    requires forall t :: parse(t).Some? ==> token(parse(t).value) == t
    requires ParseAll(ts, parse) == Some(bs)
    ensures Tokens(bs, token) == ts
    decreases |ts|
  {
    if |ts| > 0 {
      var rest := ParseAll(ts[1..], parse).value;
      assert bs == [parse(ts[0]).value] + rest;
      ParsedTokensRender(ts[1..], rest, token, parse);
      assert Tokens(bs, token) == [token(bs[0])] + Tokens(rest, token);
    }
  }

  /** A rendering with non-empty, space-free tokens that a token parser inverts is read back exactly. */
  lemma SpacedRoundTrip(bs: seq<Byte>, token: Byte -> string, parse: string -> Option<Byte>)
    requires forall b: Byte :: parse(token(b)) == Some(b)
    requires forall b: Byte :: token(b) != "" && ' ' !in token(b)
    ensures ParseSpaced(Join(" ", Tokens(bs, token)), parse) == Some(bs)
  {
    var ts := Tokens(bs, token);
    ParseAllTokens(bs, token, parse);
    if |bs| > 0 {
      SplitJoin(ts, ' ');
      if |bs| == 1 {
        assert Join(" ", ts) == ts[0];
      } else {
        assert Join(" ", ts) == ts[0] + " " + Join(" ", ts[1..]);
      }
    }
  }

  /** ...and when the token parser accepts only rendered tokens, a string that parses is the rendering
      of what it parses to. */
  lemma SpacedCanonical(s: string, bs: seq<Byte>, token: Byte -> string, parse: string -> Option<Byte>)
    requires forall t :: parse(t).Some? ==> token(parse(t).value) == t
    requires ParseSpaced(s, parse) == Some(bs)
    ensures Join(" ", Tokens(bs, token)) == s
  {
    if s != "" {
      ParsedTokensRender(Split(s, ' '), bs, token, parse);
      JoinSplit(s, ' ');
    }
  }

  // ---------------------------------------------------------------------------
  // bytes_to_hex (encode_view.py:32-37)

  predicate IsLowerHexDigit(ch: char)
  {
    ('0' <= ch <= '9') || ('a' <= ch <= 'f')
  }

  function HexDigit(d: nat): (ch: char)
    requires d < 16
    ensures IsLowerHexDigit(ch)
  {
    if d < 10 then ('0' as int + d) as char else ('a' as int + d - 10) as char
  }

  function HexDigitValue(ch: char): (r: Option<nat>)
    ensures r.Some? <==> IsLowerHexDigit(ch)
    ensures r.Some? ==> r.value < 16 && HexDigit(r.value) == ch
  {
    if '0' <= ch <= '9' then Some(ch as int - '0' as int)
    else if 'a' <= ch <= 'f' then Some(ch as int - 'a' as int + 10)
    else None
  }

  /** The two lowercase hex digits of a byte, high nibble first. */
  function HexPair(b: Byte): (t: string)
    ensures |t| == 2 && IsLowerHexDigit(t[0]) && IsLowerHexDigit(t[1])
    ensures HexDigitValue(t[0]).value * 16 + HexDigitValue(t[1]).value == b
  {
    [HexDigit(b / 16), HexDigit(b % 16)]
  }

  /** `binascii.hexlify(b).decode("ascii")`. */
  function Hexlify(bs: seq<Byte>): (hx: string)
    ensures |hx| == 2 * |bs|
  {
    if |bs| == 0 then "" else HexPair(bs[0]) + Hexlify(bs[1..])
  }

  /** `[hx[i:i+2] for i in range(0, len(hx), 2)]`. */
  function Pairs(hx: string): seq<string>
    decreases |hx|
  {
    if |hx| == 0 then []
    else if |hx| <= 2 then [hx]
    else [hx[..2]] + Pairs(hx[2..])
  }

  lemma {:induction false} PairsOfHexlify(bs: seq<Byte>)
    ensures Pairs(Hexlify(bs)) == Tokens(bs, HexPair)
    decreases |bs|
  {
    if |bs| > 0 {
      PairsOfHexlify(bs[1..]);
      var hx := Hexlify(bs);
      assert hx == HexPair(bs[0]) + Hexlify(bs[1..]);
      assert hx[..2] == HexPair(bs[0]) && hx[2..] == Hexlify(bs[1..]);
      assert Tokens(bs, HexPair) == [HexPair(bs[0])] + Tokens(bs[1..], HexPair);
      if |bs| == 1 {
        assert hx == HexPair(bs[0]);
        assert Pairs(hx) == [hx];
      } else {
        assert Pairs(hx) == [hx[..2]] + Pairs(hx[2..]);
      }
    }
  }

  /** `bytes_to_hex`: one two-digit lowercase token per byte, at offset 3k, separated by single spaces. */
  function BytesToHex(bs: seq<Byte>): (s: string)
    ensures |bs| == 0 ==> s == ""
    ensures |bs| > 0 ==> |s| == 3 * |bs| - 1
    ensures forall k :: 0 <= k < |bs| ==> 3 * k + 2 <= |s| && s[3 * k .. 3 * k + 2] == HexPair(bs[k])
    ensures forall p :: 0 <= p < |s| ==> (s[p] == ' ' <==> p % 3 == 2)
  {
    PairsOfHexlify(bs);
    HexLayout(bs);
    Join(" ", Pairs(Hexlify(bs)))
  }

  lemma HexLayout(bs: seq<Byte>)
    ensures var s := Join(" ", Tokens(bs, HexPair));
      && (|bs| > 0 ==> |s| == 3 * |bs| - 1)
      && (forall k :: 0 <= k < |bs| ==> 3 * k + 2 <= |s| && s[3 * k .. 3 * k + 2] == HexPair(bs[k]))
      && (forall p :: 0 <= p < |s| ==> (s[p] == ' ' <==> p % 3 == 2))
  {
    var ts := Tokens(bs, HexPair);
    var s := Join(" ", ts);
    if |bs| > 0 {
      JoinUniformLength(ts, ' ', 2);
    }
    forall k | 0 <= k < |bs|
      ensures 3 * k + 2 <= |s| && s[3 * k .. 3 * k + 2] == HexPair(bs[k])
      ensures k + 1 < |bs| ==> 3 * k + 2 < |s| && s[3 * k + 2] == ' '
    {
      JoinUniformSlots(ts, ' ', 2, k);
    }
    forall p | 0 <= p < |s|
      ensures s[p] == ' ' <==> p % 3 == 2
    {
      var k := p / 3;
      assert p == 3 * k + p % 3;
      assert s[3 * k .. 3 * k + 2] == HexPair(bs[k]);
      if p % 3 < 2 {
        assert s[p] == HexPair(bs[k])[p % 3];
      }
    }
  }

  /** Reads one hex token back: exactly two lowercase hex digits. */
  function ParseHexPair(t: string): (r: Option<Byte>)
  {
    if |t| == 2 && HexDigitValue(t[0]).Some? && HexDigitValue(t[1]).Some? then
      Some(HexDigitValue(t[0]).value * 16 + HexDigitValue(t[1]).value)
    else None
  }

  function ParseHex(s: string): Option<seq<Byte>>
  {
    ParseSpaced(s, ParseHexPair)
  }

  lemma HexDigitRoundTrip(d: nat)
    requires d < 16
    ensures HexDigitValue(HexDigit(d)) == Some(d)
  {
  }

  lemma HexPairParses(b: Byte)
    ensures ParseHexPair(HexPair(b)) == Some(b)
    ensures ' ' !in HexPair(b)
  {
    var t := HexPair(b);
    HexDigitRoundTrip(b / 16);
    HexDigitRoundTrip(b % 16);
    assert HexDigitValue(t[0]) == Some(b / 16) && HexDigitValue(t[1]) == Some(b % 16);
  }

  lemma HexPairCanonical(t: string)
    requires ParseHexPair(t).Some?
    ensures HexPair(ParseHexPair(t).value) == t
  {
    var hi := HexDigitValue(t[0]).value;
    var lo := HexDigitValue(t[1]).value;
    var b := hi * 16 + lo;
    assert b / 16 == hi && b % 16 == lo;
    assert HexPair(b) == [HexDigit(hi), HexDigit(lo)];
  }

  lemma HexPairInverse()
    ensures forall b: Byte :: ParseHexPair(HexPair(b)) == Some(b)
    ensures forall b: Byte :: HexPair(b) != "" && ' ' !in HexPair(b)
    ensures forall t :: ParseHexPair(t).Some? ==> HexPair(ParseHexPair(t).value) == t
  {
    forall b: Byte
      ensures ParseHexPair(HexPair(b)) == Some(b) && ' ' !in HexPair(b)
    {
      HexPairParses(b);
    }
    forall t | ParseHexPair(t).Some?
      ensures HexPair(ParseHexPair(t).value) == t
    {
      HexPairCanonical(t);
    }
  }

  /** Splitting the hex rendering at spaces and parsing each token recovers the bytes. */
  lemma HexRoundTrip(bs: seq<Byte>)
    ensures ParseHex(BytesToHex(bs)) == Some(bs)
  {
    assert ParseHex(Join(" ", Tokens(bs, HexPair))) == Some(bs) by {
      HexPairInverse();
      SpacedRoundTrip(bs, HexPair, ParseHexPair);
    }
    assert BytesToHex(bs) == Join(" ", Tokens(bs, HexPair)) by {
      PairsOfHexlify(bs);
    }
  }

  /** The hex rendering is the only string that parses to given bytes. */
  lemma HexCanonical(s: string, bs: seq<Byte>)
    requires ParseHex(s) == Some(bs)
    ensures BytesToHex(bs) == s
  {
    assert Join(" ", Tokens(bs, HexPair)) == s by {
      HexPairInverse();
      SpacedCanonical(s, bs, HexPair, ParseHexPair);
    }
    assert BytesToHex(bs) == Join(" ", Tokens(bs, HexPair)) by {
      PairsOfHexlify(bs);
    }
  }

  // ---------------------------------------------------------------------------
  // bytes_to_binary (encode_view.py:40-44)

  predicate IsBitChar(ch: char)
  {
    ch == '0' || ch == '1'
  }

  /** The w-digit binary numeral of v mod 2^w, most significant bit first. */
  function Bits(v: nat, w: nat): (s: string)
    ensures |s| == w
    ensures forall j :: 0 <= j < w ==> IsBitChar(s[j])
  {
    if w == 0 then "" else Bits(v / 2, w - 1) + [if v % 2 == 0 then '0' else '1']
  }

  /** The value of a binary numeral, most significant bit first. */
  function BitsValue(s: string): Option<nat>
  {
    if |s| == 0 then Some(0)
    else match BitsValue(s[..|s| - 1])
      case Some(high) =>
        if s[|s| - 1] == '0' then Some(2 * high)
        else if s[|s| - 1] == '1' then Some(2 * high + 1)
        else None
      case None => None
  }

  /** Bit i of v: v shifted right by i places, mod 2. */
  function Bit(v: nat, i: nat): (bit: nat)
    ensures bit < 2
  {
    if i == 0 then v % 2 else Bit(v / 2, i - 1)
  }

  /** Character j of the w-digit numeral is bit w-1-j of v: most significant bit first. */
  lemma {:induction false} BitsMostSignificantFirst(v: nat, w: nat, j: nat)
    requires j < w
    ensures Bits(v, w)[j] == if Bit(v, w - 1 - j) == 0 then '0' else '1'
    decreases w
  {
    if j < w - 1 {
      BitsMostSignificantFirst(v / 2, w - 1, j);
    }
  }

  lemma {:induction false} BitsRoundTrip(v: nat, w: nat)
    requires v < NumberTheory.Pow(2, w)
    ensures BitsValue(Bits(v, w)) == Some(v)
    decreases w
  {
    if w > 0 {
      HalfBelow(v, w);
      BitsRoundTrip(v / 2, w - 1);
      BitsStep(v, w);
    }
  }

  /** One step of the round trip: the numeral of v is the numeral of v / 2 followed by v's lowest
      bit, which doubles the value and adds the bit back. */
  lemma BitsStep(v: nat, w: nat)
    requires w > 0
    requires BitsValue(Bits(v / 2, w - 1)) == Some(v / 2)
    ensures BitsValue(Bits(v, w)) == Some(v)
  {
    var last := if v % 2 == 0 then '0' else '1';
    BitsUnfold(v, w);
    BitsValueSnoc(Bits(v / 2, w - 1), last, v / 2);
    HalfAndBit(v);
  }

  lemma BitsUnfold(v: nat, w: nat)
    requires w > 0
    ensures Bits(v, w) == Bits(v / 2, w - 1) + [if v % 2 == 0 then '0' else '1']
  {
  }

  lemma HalfAndBit(v: nat)
    ensures v == 2 * (v / 2) + if v % 2 == 0 then 0 else 1
  {
  }

  lemma HalfBelow(v: nat, w: nat)
    requires w > 0 && v < NumberTheory.Pow(2, w)
    ensures v / 2 < NumberTheory.Pow(2, w - 1)
  {
    assert NumberTheory.Pow(2, w) == 2 * NumberTheory.Pow(2, w - 1);
  }

  /** Appending a bit doubles the value and adds the bit. */
  lemma BitsValueSnoc(init: string, last: char, high: nat)
    requires BitsValue(init) == Some(high) && IsBitChar(last)
    ensures BitsValue(init + [last]) == Some(2 * high + if last == '0' then 0 else 1)
  {
    var s := init + [last];
    assert s[..|s| - 1] == init && s[|s| - 1] == last;
  }

  lemma {:induction false} BitsCanonical(s: string, v: nat)
    requires BitsValue(s) == Some(v)
    ensures v < NumberTheory.Pow(2, |s|)
    ensures Bits(v, |s|) == s
    decreases |s|
  {
    if |s| > 0 {
      var init := s[..|s| - 1];
      var high := BitsValue(init).value;
      BitsCanonical(init, high);
      assert v / 2 == high;
      assert s == init + [s[|s| - 1]];
    }
  }

  /** The 8-digit binary token of a byte: f"{byte:08b}". */
  function BinaryToken(b: Byte): (t: string)
    ensures |t| == 8
    ensures forall j :: 0 <= j < 8 ==> IsBitChar(t[j])
  {
    Bits(b, 8)
  }

  /** `bytes_to_binary`: one eight-digit token per byte, at offset 9k, separated by single spaces. */
  function BytesToBinary(bs: seq<Byte>): (s: string)
    ensures |bs| == 0 ==> s == ""
    ensures |bs| > 0 ==> |s| == 9 * |bs| - 1
    ensures forall k :: 0 <= k < |bs| ==> 9 * k + 8 <= |s| && s[9 * k .. 9 * k + 8] == BinaryToken(bs[k])
    ensures forall p :: 0 <= p < |s| ==> (s[p] == ' ' <==> p % 9 == 8)
  {
    BinaryLayout(bs);
    Join(" ", Tokens(bs, BinaryToken))
  }

  lemma BinaryLayout(bs: seq<Byte>)
    ensures var s := Join(" ", Tokens(bs, BinaryToken));
      && (|bs| > 0 ==> |s| == 9 * |bs| - 1)
      && (forall k :: 0 <= k < |bs| ==> 9 * k + 8 <= |s| && s[9 * k .. 9 * k + 8] == BinaryToken(bs[k]))
      && (forall p :: 0 <= p < |s| ==> (s[p] == ' ' <==> p % 9 == 8))
  {
    var ts := Tokens(bs, BinaryToken);
    var s := Join(" ", ts);
    if |bs| > 0 {
      JoinUniformLength(ts, ' ', 8);
    }
    forall k | 0 <= k < |bs|
      ensures 9 * k + 8 <= |s| && s[9 * k .. 9 * k + 8] == BinaryToken(bs[k])
      ensures k + 1 < |bs| ==> 9 * k + 8 < |s| && s[9 * k + 8] == ' '
    {
      JoinUniformSlots(ts, ' ', 8, k);
    }
    forall p | 0 <= p < |s|
      ensures s[p] == ' ' <==> p % 9 == 8
    {
      var k := p / 9;
      assert p == 9 * k + p % 9;
      assert s[9 * k .. 9 * k + 8] == BinaryToken(bs[k]);
      if p % 9 < 8 {
        assert s[p] == BinaryToken(bs[k])[p % 9];
      }
    }
  }

  /** Reads one binary token back: exactly eight binary digits. */
  function ParseBinaryToken(t: string): (r: Option<Byte>)
  {
    if |t| == 8 then
      match BitsValue(t)
      case Some(v) => if v < 256 then Some(v) else None
      case None => None
    else None
  }

  function ParseBinary(s: string): Option<seq<Byte>>
  {
    ParseSpaced(s, ParseBinaryToken)
  }

  lemma BinaryTokenInverse()
    ensures forall b: Byte :: ParseBinaryToken(BinaryToken(b)) == Some(b)
    ensures forall b: Byte :: BinaryToken(b) != "" && ' ' !in BinaryToken(b)
    ensures forall t :: ParseBinaryToken(t).Some? ==> BinaryToken(ParseBinaryToken(t).value) == t
  {
    assert NumberTheory.Pow(2, 8) == 256;
    forall b: Byte
      ensures ParseBinaryToken(BinaryToken(b)) == Some(b)
    {
      BitsRoundTrip(b, 8);
    }
    forall t | ParseBinaryToken(t).Some?
      ensures BinaryToken(ParseBinaryToken(t).value) == t
    {
      BitsCanonical(t, BitsValue(t).value);
    }
  }

  /** Splitting the binary rendering at spaces and parsing each token recovers the bytes. */
  lemma BinaryRoundTrip(bs: seq<Byte>)
    ensures ParseBinary(BytesToBinary(bs)) == Some(bs)
  {
    BinaryTokenInverse();
    SpacedRoundTrip(bs, BinaryToken, ParseBinaryToken);
  }

  /** The binary rendering is the only string that parses to given bytes. */
  lemma BinaryCanonical(s: string, bs: seq<Byte>)
    requires ParseBinary(s) == Some(bs)
    ensures BytesToBinary(bs) == s
  {
    BinaryTokenInverse();
    SpacedCanonical(s, bs, BinaryToken, ParseBinaryToken);
  }
}

=== FILE: encode_view_chars.dfy ===
/** Per-character views of encode_view.py: `char_info` and `per_char_encoding`.
    The codec (`str.encode` with an encoding and an error policy) and the Unicode name table
    (`unicodedata.name`) are parameters: `encode` yields the bytes of one character or None when
    the codec raises UnicodeEncodeError, `name` yields a character's name or None when the
    table has none. */
module CharViews {
  import opened Wrappers
  import opened Text
  import opened ByteViews

  // ---------------------------------------------------------------------------
  // Upper-case hexadecimal numerals, as produced by the format spec "04X"

  predicate IsUpperHexDigit(ch: char)
  {
    ('0' <= ch <= '9') || ('A' <= ch <= 'F')
  }

  predicate AllUpperHex(s: string)
  {
    forall j :: 0 <= j < |s| ==> IsUpperHexDigit(s[j])
  }

  function UpperHexDigit(d: nat): (ch: char)
    requires d < 16
    ensures IsUpperHexDigit(ch)
  {
    if d < 10 then ('0' as int + d) as char else ('A' as int + d - 10) as char
  }

  function UpperHexDigitValue(ch: char): (d: nat)
    requires IsUpperHexDigit(ch)
    ensures d < 16 && UpperHexDigit(d) == ch
  {
    if '0' <= ch <= '9' then ch as int - '0' as int else ch as int - 'A' as int + 10
  }

  /** The value of a numeral of upper-case hex digits, most significant digit first. */
  function UpperHexValue(s: string): nat
    requires AllUpperHex(s)
  {
    if |s| == 0 then 0
    else UpperHexValue(s[..|s| - 1]) * 16 + UpperHexDigitValue(s[|s| - 1])
  }

  /** The shortest upper-case hex numeral of v. */
  function UpperHex(v: nat): (s: string)
    ensures |s| >= 1 && AllUpperHex(s)
    ensures UpperHexValue(s) == v
    ensures |s| > 1 ==> s[0] != '0'
  {
    var last := UpperHexDigit(v % 16);
    if v < 16 then
      assert UpperHexDigitValue(last) == v;
      [last]
    else
      var high := UpperHex(v / 16);
      var s := high + [last];
      assert s[..|s| - 1] == high;
      s
  }

  /** Leading zeros do not change a numeral's value. */
  lemma {:induction false} LeadingZeros(z: nat, s: string)
    requires AllUpperHex(s)
    ensures AllUpperHex(Repeat('0', z) + s)
    ensures UpperHexValue(Repeat('0', z) + s) == UpperHexValue(s)
    decreases |s|, z
  {
    var t := Repeat('0', z) + s;
    if |s| > 0 {
      LeadingZeros(z, s[..|s| - 1]);
      assert t[..|t| - 1] == Repeat('0', z) + s[..|s| - 1];
    } else if z > 0 {
      LeadingZeros(z - 1, s);
      assert t[..|t| - 1] == Repeat('0', z - 1) + s;
    }
  }

  /** Zero-pads a numeral on the left to four digits. */
  function PadTo4(digits: string): string
  {
    if |digits| >= 4 then digits else Repeat('0', 4 - |digits|) + digits
  }

  /** f"{cp:04X}": the upper-case hex numeral of cp, zero-padded on the left to at least four digits. */
  function CodePointField(cp: nat): (h: string)
    ensures |h| >= 4 && AllUpperHex(h)
    ensures UpperHexValue(h) == cp
    ensures |h| > 4 ==> h[0] != '0'
  {
    var digits := UpperHex(cp);
    if |digits| >= 4 then PadTo4(digits)
    else
      LeadingZeros(4 - |digits|, digits);
      PadTo4(digits)
  }

  /** A numeral without leading zeros is the shortest numeral of its value. */
  lemma {:induction false} UpperHexCanonical(s: string)
    requires |s| >= 1 && AllUpperHex(s) && (|s| > 1 ==> s[0] != '0')
    ensures UpperHex(UpperHexValue(s)) == s
    decreases |s|
  {
    var v := UpperHexValue(s);
    var d := UpperHexDigitValue(s[|s| - 1]);
    if |s| == 1 {
      assert s[..0] == [];
      assert UpperHexValue(s[..0]) == 0;
    } else {
      var high := s[..|s| - 1];
      assert high[0] == s[0];
      UpperHexCanonical(high);
      UpperHexPositive(high);
      assert v / 16 == UpperHexValue(high) && v % 16 == d;
      assert s == high + [s[|s| - 1]];
    }
  }

  /** A numeral that does not start with zero has a positive value. */
  lemma {:induction false} UpperHexPositive(s: string)
    requires |s| >= 1 && AllUpperHex(s) && s[0] != '0'
    ensures UpperHexValue(s) > 0
    decreases |s|
  {
    if |s| > 1 {
      assert s[..|s| - 1][0] == s[0];
      UpperHexPositive(s[..|s| - 1]);
    } else {
      assert s[..0] == [];
    }
  }

  /** s without its leading zeros, keeping at least one digit. */
  function StripLeadingZeros(s: string): (t: string)
    requires |s| >= 1
    ensures 1 <= |t| <= |s| && t == s[|s| - |t|..]
    ensures |t| > 1 ==> t[0] != '0'
    ensures forall k :: 0 <= k < |s| - |t| ==> s[k] == '0'
  {
    if |s| > 1 && s[0] == '0' then StripLeadingZeros(s[1..]) else s
  }

  /** The field is the only numeral of four or more digits, without zeros beyond the padding to four,
      that denotes the code point: any such numeral is the field of its own value. */
  lemma CodePointFieldCanonical(h: string)
    requires |h| >= 4 && AllUpperHex(h) && (|h| > 4 ==> h[0] != '0')
    ensures CodePointField(UpperHexValue(h)) == h
  {
    var t := StripLeadingZeros(h);
    var z := |h| - |t|;
    if z == 0 {
      assert t == h;
      UnpaddedField(h);
    } else {
      assert h[0] == '0';
      PaddedDigits(h, t, z);
      PaddedField(h, t);
    }
  }

  lemma UnpaddedField(h: string)
    requires |h| >= 4 && AllUpperHex(h) && h[0] != '0'
    ensures CodePointField(UpperHexValue(h)) == h
  {
    UpperHexCanonical(h);
    assert CodePointField(UpperHexValue(h)) == PadTo4(h);
  }

  lemma PaddedField(h: string, t: string)
    requires |h| == 4 && 1 <= |t| < 4 && AllUpperHex(t) && (|t| > 1 ==> t[0] != '0')
    requires h == Repeat('0', 4 - |t|) + t
    requires AllUpperHex(h) && UpperHexValue(t) == UpperHexValue(h)
    ensures CodePointField(UpperHexValue(h)) == h
  {
    UpperHexCanonical(t);
    assert CodePointField(UpperHexValue(t)) == PadTo4(t);
  }

  /** A numeral whose first z digits are zeros is those zeros in front of the rest, with the same value. */
  lemma PaddedDigits(h: string, t: string, z: nat)
    requires AllUpperHex(h) && z <= |h| && t == h[z..]
    requires forall k :: 0 <= k < z ==> h[k] == '0'
    ensures h == Repeat('0', z) + t
    ensures AllUpperHex(t) && UpperHexValue(t) == UpperHexValue(h)
  {
    assert h == Repeat('0', z) + t;
    assert AllUpperHex(t) by {
      forall j | 0 <= j < |t|
        ensures IsUpperHexDigit(t[j])
      {
        assert t[j] == h[z + j];
      }
    }
    LeadingZeros(z, t);
  }

  // ---------------------------------------------------------------------------
  // char_info (encode_view.py:47-57)

  const Unassigned: string := "<unassigned>"

  /** The name shown for a character: its Unicode name, or "<unassigned>" when the table has none. */
  function NameLabel(ch: char, name: char -> Option<string>): string
  {
    match name(ch)
    case Some(n) => n
    case None => Unassigned
  }

  /** The longest prefix of s made of upper-case hex digits. */
  function TakeUpperHex(s: string): (h: string)
    ensures |h| <= |s| && h == s[..|h|] && AllUpperHex(h)
    ensures |h| < |s| ==> !IsUpperHexDigit(s[|h|])
  {
    if |s| == 0 || !IsUpperHexDigit(s[0]) then ""
    else [s[0]] + TakeUpperHex(s[1..])
  }

  /** Reads a character-info label back into its character, code point and name. A label whose
      code point is not that of its quoted character is not one `char_info` writes, and is rejected. */
  function ParseCharInfo(s: string): Option<(char, nat, string)>
  {
    if |s| >= 7 && s[0] == '\'' && s[2] == '\'' && s[3..6] == " U+" then
      match ParseFieldAndName(s[6..])
      case Some((cp, shown)) => if cp == s[1] as nat then Some((s[1], cp, shown)) else None
      case None => None
    else None
  }

  /** Reads the part after " U+": the hex field, which must be written as `{cp:04X}` writes it (at
      least four digits, no zeros beyond the padding to four), a space, and the name. */
  function ParseFieldAndName(rest: string): Option<(nat, string)>
  {
    var h := TakeUpperHex(rest);
    if |h| >= 4 && (|h| > 4 ==> h[0] != '0') && |h| < |rest| && rest[|h|] == ' ' then
      Some((UpperHexValue(h), rest[|h| + 1..]))
    else None
  }

  lemma TakeUpperHexStopsAtSpace(h: string, rest: string)
    requires AllUpperHex(h)
    ensures TakeUpperHex(h + " " + rest) == h
    decreases |h|
  {
    if |h| > 0 {
      assert (h + " " + rest)[1..] == h[1..] + " " + rest;
      TakeUpperHexStopsAtSpace(h[1..], rest);
      assert h == [h[0]] + h[1..];
    }
  }

  /** `char_info`: the quoted character, " U+", its code point in hex, a space and its name label.
      At least four hex digits always follow " U+". */
  function CharInfo(ch: char, name: char -> Option<string>): (info: string)
    ensures |info| >= 11 && info[..6] == ['\'', ch, '\''] + " U+"
    ensures forall j :: 6 <= j < 10 ==> IsUpperHexDigit(info[j])
  {
    ['\'', ch, '\''] + " U+" + CodePointField(ch as nat) + " " + NameLabel(ch, name)
  }

  /** The info label reads back into exactly the character, its code point and the name shown. */
  lemma CharInfoRoundTrip(ch: char, name: char -> Option<string>)
    ensures ParseCharInfo(CharInfo(ch, name)) == Some((ch, ch as nat, NameLabel(ch, name)))
  {
    var h, shown := CodePointField(ch as nat), NameLabel(ch, name);
    CharInfoParts(ch, name);
    ParsePrefixed(ch, h + " " + shown);
    FieldAndNameAssembled(h, shown);
  }

  lemma CharInfoParts(ch: char, name: char -> Option<string>)
    ensures CharInfo(ch, name) ==
      ['\'', ch, '\'', ' ', 'U', '+'] + (CodePointField(ch as nat) + " " + NameLabel(ch, name))
  {
  }

  /** Behind the quoted character and " U+", the parse is that of the rest. */
  lemma ParsePrefixed(ch: char, rest: string)
    requires |rest| >= 1
    ensures ParseCharInfo(['\'', ch, '\'', ' ', 'U', '+'] + rest) ==
      match ParseFieldAndName(rest)
      case Some((cp, shown)) => if cp == ch as nat then Some((ch, cp, shown)) else None
      case None => None
  {
    var s := ['\'', ch, '\'', ' ', 'U', '+'] + rest;
    assert s[6..] == rest && s[3..6] == " U+";
  }

  lemma FieldAndNameAssembled(h: string, shown: string)
    requires |h| >= 4 && AllUpperHex(h) && (|h| > 4 ==> h[0] != '0')
    ensures ParseFieldAndName(h + " " + shown) == Some((UpperHexValue(h), shown))
  {
    var rest := h + " " + shown;
    TakeUpperHexStopsAtSpace(h, shown);
    assert rest[|h|] == ' ' && rest[|h| + 1..] == shown;
  }

  /** ...and a label that parses at all carries its character's own code point and is the label of
      that character showing the name parsed. */
  lemma CharInfoCanonical(s: string, ch: char, cp: nat, shown: string)
    requires ParseCharInfo(s) == Some((ch, cp, shown))
    ensures cp == ch as nat
    ensures s == CharInfo(ch, _ => Some(shown))
  {
    var rest := s[6..];
    ParsedPrefix(s);
    ParsedFieldAndName(rest);
    CodePointFieldCanonical(TakeUpperHex(rest));
    CharInfoParts(ch, _ => Some(shown));
  }

  /** 'A' is U+0041, so a label claiming U+0042 for it is rejected... */
  lemma ForeignCodePointRejected()
    ensures ParseCharInfo("'A' U+0042 X") == None
  {
    FieldOf0042();
    ParsePrefixed('A', "0042 X");
    assert "'A' U+0042 X" == ['\'', 'A', '\'', ' ', 'U', '+'] + "0042 X";
  }

  lemma FieldOf0042()
    ensures ParseFieldAndName("0042 X") == Some((66, "X"))
  {
    ValueOf0042();
    FieldAndNameAssembled("0042", "X");
    assert "0042" + " " + "X" == "0042 X";
  }

  lemma ValueOf0042()
    ensures AllUpperHex("0042") && UpperHexValue("0042") == 66
  {
    HexValueSnoc("", '0');
    HexValueSnoc("0", '0');
    HexValueSnoc("00", '4');
    HexValueSnoc("004", '2');
    assert "" + ['0'] == "0" && "0" + ['0'] == "00" && "00" + ['4'] == "004" && "004" + ['2'] == "0042";
  }

  lemma HexValueSnoc(s: string, c: char)
    requires AllUpperHex(s) && IsUpperHexDigit(c)
    ensures AllUpperHex(s + [c])
    ensures UpperHexValue(s + [c]) == UpperHexValue(s) * 16 + UpperHexDigitValue(c)
  {
    assert (s + [c])[..|s|] == s;
  }

  /** ...and so is the unpadded U+41. */
  lemma UnpaddedCodePointRejected()
    ensures ParseCharInfo("'A' U+41 X") == None
  {
    TakeUpperHexStopsAtSpace("41", "X");
    ParsePrefixed('A', "41 X");
    assert "'A' U+41 X" == ['\'', 'A', '\'', ' ', 'U', '+'] + "41 X";
  }

  /** A label that parses is the quoted character and " U+" in front of a rest that parses. */
  lemma ParsedPrefix(s: string)
    requires ParseCharInfo(s).Some?
    ensures |s| >= 7 && s == ['\'', s[1], '\'', ' ', 'U', '+'] + s[6..]
    ensures ParseFieldAndName(s[6..]).Some? && ParseFieldAndName(s[6..]).value.0 == s[1] as nat
    ensures ParseCharInfo(s).value ==
      (s[1], ParseFieldAndName(s[6..]).value.0, ParseFieldAndName(s[6..]).value.1)
  {
    assert s[..6] == ['\'', s[1], '\'', ' ', 'U', '+'];
    assert s == s[..6] + s[6..];
  }

  /** What parses after " U+" is the hex field, a space and the name parsed. */
  lemma ParsedFieldAndName(rest: string)
    requires ParseFieldAndName(rest).Some?
    ensures var h := TakeUpperHex(rest);
      && |h| >= 4 && AllUpperHex(h) && (|h| > 4 ==> h[0] != '0')
      && ParseFieldAndName(rest).value == (UpperHexValue(h), rest[|h| + 1..])
      && rest == h + " " + rest[|h| + 1..]
  {
    var h := TakeUpperHex(rest);
    var n := |h|;
    assert rest == rest[..n] + [rest[n]] + rest[n + 1..];
  }

  // ---------------------------------------------------------------------------
  // per_char_encoding (encode_view.py:67-79)

  /** One table row: the character's info label, its byte count, and its bytes in hex and binary. */
  datatype Row = Row(info: string, byteCount: nat, hex: string, binary: string)

  const EncodeError: string := "<encode error>"

  /** The row `per_char_encoding` builds for one character. */
  function CharRow(ch: char, encode: char -> Option<seq<Byte>>, name: char -> Option<string>): Row
  {
    match encode(ch)
    case Some(eb) => Row(CharInfo(ch, name), |eb|, BytesToHex(eb), BytesToBinary(eb))
    case None => Row(CharInfo(ch, name), 0, EncodeError, EncodeError)
  }

  /** What `per_char_encoding` promises of the row for one character. */
  predicate RowShape(ch: char, encode: char -> Option<seq<Byte>>, name: char -> Option<string>, row: Row)
  {
    && row.info == CharInfo(ch, name)
    && (encode(ch).None? ==> row.byteCount == 0 && row.hex == EncodeError && row.binary == EncodeError)
    && (encode(ch).Some? ==>
          row.byteCount == |encode(ch).value|
          && row.hex == BytesToHex(encode(ch).value)
          && row.binary == BytesToBinary(encode(ch).value))
  }

  lemma CharRowShape(ch: char, encode: char -> Option<seq<Byte>>, name: char -> Option<string>)
    ensures RowShape(ch, encode, name, CharRow(ch, encode, name))
  {
  }

  /** The loop of `per_char_encoding`: walks the text once, appending one row per character. */
  method RowPerChar<R>(text: string, rowOf: char -> R) returns (rows: seq<R>)
    ensures |rows| == |text|
    ensures forall k :: 0 <= k < |text| ==> rows[k] == rowOf(text[k])
  {
    rows := [];
    var i := 0;
    while i < |text|
      invariant 0 <= i <= |text|
      invariant |rows| == i
      invariant forall k :: 0 <= k < i ==> rows[k] == rowOf(text[k])
    {
      rows := rows + [rowOf(text[i])];
      i := i + 1;
    }
  }

  /** `per_char_encoding`: one row per character of `text`, in order. A character the codec rejects
      gets a zero byte count and the error marker in both byte columns; any other gets the number,
      hex and binary rendering of its bytes. */
  method PerCharEncoding(text: string, encode: char -> Option<seq<Byte>>, name: char -> Option<string>)
    returns (rows: seq<Row>)
    ensures |rows| == |text|
    ensures forall k :: 0 <= k < |text| ==> RowShape(text[k], encode, name, rows[k])
  {
    rows := RowPerChar(text, ch => CharRow(ch, encode, name));
    RowsHaveShape(text, encode, name, rows);
  }

  lemma RowsHaveShape(text: string, encode: char -> Option<seq<Byte>>, name: char -> Option<string>, rows: seq<Row>)
    requires |rows| == |text|
    requires forall k :: 0 <= k < |text| ==> rows[k] == CharRow(text[k], encode, name)
    ensures forall k :: 0 <= k < |text| ==> RowShape(text[k], encode, name, rows[k])
  {
    forall k | 0 <= k < |text|
      ensures RowShape(text[k], encode, name, rows[k])
    {
      CharRowShape(text[k], encode, name);
    }
  }

  /** The error marker is not a valid rendering in either notation. */
  lemma ErrorMarkerDoesNotParse()
    ensures ParseHex(EncodeError) == None
    ensures ParseBinary(EncodeError) == None
  {
    var parts := ["<encode", "error>"];
    assert Join(" ", parts) == EncodeError;
    SplitJoin(parts, ' ');
    assert ParseHexPair("<encode") == None;
    assert ParseBinaryToken("<encode") == None;
  }

  /** Each row's hex column, and likewise its binary column, reads back to exactly what the codec
      produced for the character, failure included; the byte count is the length of those bytes. */
  lemma RowRecoversEncoding(ch: char, encode: char -> Option<seq<Byte>>, name: char -> Option<string>, row: Row)
    requires RowShape(ch, encode, name, row)
    ensures ParseHex(row.hex) == encode(ch)
    ensures ParseBinary(row.binary) == encode(ch)
    ensures ParseCharInfo(row.info) == Some((ch, ch as nat, NameLabel(ch, name)))
    ensures ParseHex(row.hex).Some? ==> row.byteCount == |ParseHex(row.hex).value|
  {
    CharInfoRoundTrip(ch, name);
    match encode(ch)
    case Some(eb) =>
      HexRoundTrip(eb);
      BinaryRoundTrip(eb);
    case None =>
      ErrorMarkerDoesNotParse();
  }
}

=== FILE: encode_view_menu.dfy ===
/** The option lists of encode_view.py and the selection rule of `display_options_menu`.
    The menu's printing and the reading of the user's line are left to the caller: the line read is
    the `choice` parameter. */
module OptionsMenu {
  import opened Wrappers
  import NumberTheory

  /** `list_encodings`: the notable encodings, in menu order. */
  const Encodings: seq<string> := [
    "ascii", "latin-1", "utf-8",
    "utf-16", "utf-16-le", "utf-16-be",
    "utf-32", "utf-32-le", "utf-32-be",
    "cp1252", "shift_jis"
  ]

  /** `list_errors_policies`: the error-handling policies, in menu order. */
  const ErrorPolicies: seq<string> := [
    "strict", "replace", "ignore",
    "backslashreplace", "namereplace"
  ]

  /** The ValueErrors `display_options_menu` lets escape: "Unknown type for options menu." for a menu
      type it does not know, and the one `int()` raises on a digit string longer than its limit. */
  datatype MenuError = UnknownMenuType | DigitLimitExceeded

  /** CPython's default limit on the number of digits `int()` converts from a decimal string. */
  const MaxStrDigits: nat := 4300

  /** No option is listed twice. */
  predicate Distinct(options: seq<string>)
  {
    forall j, k :: 0 <= j < k < |options| ==> options[j] != options[k]
  }

  /** The two lists have the documented lengths and defaults, and name each option once. */
  lemma OptionLists()
    ensures |Encodings| == 11 && Encodings[2] == "utf-8" && Distinct(Encodings)
    ensures |ErrorPolicies| == 5 && ErrorPolicies[0] == "strict" && Distinct(ErrorPolicies)
  {
  }

  // ---------------------------------------------------------------------------
  // Decimal numerals

  predicate IsDigit(ch: char)
  {
    '0' <= ch <= '9'
  }

  /** `str.isdigit` restricted to ASCII: a non-empty string of decimal digits. */
  predicate IsDigits(s: string)
  {
    |s| > 0 && forall j :: 0 <= j < |s| ==> IsDigit(s[j])
  }

  function DigitChar(d: nat): (ch: char)
    requires d < 10
    ensures IsDigit(ch)
  {
    ('0' as int + d) as char
  }

  function DigitValue(ch: char): (d: nat)
    requires IsDigit(ch)
    ensures d < 10 && DigitChar(d) == ch
  {
    ch as int - '0' as int
  }

  /** `int(s)` for a string of decimal digits, most significant digit first; leading zeros allowed. */
  function DecimalValue(s: string): nat
    requires forall j :: 0 <= j < |s| ==> IsDigit(s[j])
  {
    if |s| == 0 then 0
    else DecimalValue(s[..|s| - 1]) * 10 + DigitValue(s[|s| - 1])
  }

  /** The decimal numeral of n without leading zeros, as the menu prints the option numbers. */
  function Decimal(n: nat): (s: string)
    ensures IsDigits(s)
    ensures DecimalValue(s) == n
    ensures |s| > 1 ==> s[0] != '0'
  {
    var last := DigitChar(n % 10);
    if n < 10 then [last]
    else
      var high := Decimal(n / 10);
      var s := high + [last];
      assert s[..|s| - 1] == high;
      s
  }

  /** A numeral without leading zeros is the decimal numeral of its value: `Decimal` is the only
      such spelling of a number. */
  lemma {:induction false} DecimalCanonical(s: string)
    requires IsDigits(s) && (|s| > 1 ==> s[0] != '0')
    ensures Decimal(DecimalValue(s)) == s
    decreases |s|
  {
    var n := DecimalValue(s);
    var d := DigitValue(s[|s| - 1]);
    if |s| == 1 {
      assert s[..|s| - 1] == [];
      assert DecimalValue(s[..|s| - 1]) == 0;
    } else {
      var high := s[..|s| - 1];
      assert high[0] == s[0];
      DecimalCanonical(high);
      PositiveWhenLeadingNonzero(high);
      assert n / 10 == DecimalValue(high) && n % 10 == d;
      assert s == high + [s[|s| - 1]];
    }
  }

  /** A numeral that does not start with zero has a positive value. */
  lemma {:induction false} PositiveWhenLeadingNonzero(s: string)
    requires IsDigits(s) && s[0] != '0'
    ensures DecimalValue(s) > 0
    decreases |s|
  {
    if |s| > 1 {
      assert s[..|s| - 1][0] == s[0];
      PositiveWhenLeadingNonzero(s[..|s| - 1]);
    } else {
      assert s[..0] == [];
    }
  }

  /** The numeral of n has at most d digits exactly when n is below 10^d. */
  lemma {:induction false} DecimalDigits(n: nat, d: nat)
    requires d >= 1
    ensures |Decimal(n)| <= d <==> n < NumberTheory.Pow(10, d)
    decreases n
  {
    TenthPower(d);
    if n >= 10 && d > 1 {
      DecimalDigits(n / 10, d - 1);
      ShiftedBelow(n, NumberTheory.Pow(10, d - 1));
    }
  }

  lemma {:induction false} TenthPower(d: nat)
    requires d >= 1
    ensures NumberTheory.Pow(10, d) >= 10
  {
    if d > 1 {
      TenthPower(d - 1);
    }
  }

  lemma ShiftedBelow(n: nat, p: int)
    ensures n < 10 * p <==> n / 10 < p
  {
  }

  // ---------------------------------------------------------------------------
  // The selection rule

  /** The number the user typed selects option number `DecimalValue(choice)`, counted from one. */
  predicate ValidChoice(options: seq<string>, choice: string)
  {
    IsDigits(choice) && 1 <= DecimalValue(choice) <= |options|
  }

  /** `int(choice)` raises ValueError: the line is a digit string longer than the limit. */
  predicate OverDigitLimit(choice: string)
  {
    IsDigits(choice) && |choice| > MaxStrDigits
  }

  /** What the menu returns for the line `choice`: the listed option of that number, or the default
      for anything else — an empty line, a non-number, or a number outside the list. A digit string
      too long for `int()` is a ValueError, raised before any bounds check. */
  function Select(options: seq<string>, default: string, choice: string): (r: Result<string, MenuError>)
    ensures r.Err? <==> OverDigitLimit(choice)
    ensures r.Err? ==> r.error == DigitLimitExceeded
    ensures !OverDigitLimit(choice) && ValidChoice(options, choice) ==>
      r == Ok(options[DecimalValue(choice) - 1])
    ensures !OverDigitLimit(choice) && !ValidChoice(options, choice) ==> r == Ok(default)
  {
    if IsDigits(choice) then
      if |choice| > MaxStrDigits then Err(DigitLimitExceeded)
      else
        var index := DecimalValue(choice) - 1;
        if 0 <= index < |options| then Ok(options[index]) else Ok(default)
    else Ok(default)
  }

  /** Typing the number printed beside an option selects exactly that option, provided `int()`
      accepts a numeral of that length. */
  lemma SelectPrintedNumber(options: seq<string>, default: string, k: nat)
    requires k < |options|
    ensures |Decimal(k + 1)| <= MaxStrDigits ==> Select(options, default, Decimal(k + 1)) == Ok(options[k])
    ensures |Decimal(k + 1)| > MaxStrDigits ==> Select(options, default, Decimal(k + 1)) == Err(DigitLimitExceeded)
  {
  }

  /** The menu only ever returns a listed option or the default, and it returns something other than
      the default only for a valid number. */
  lemma SelectBounded(options: seq<string>, default: string, choice: string)
    ensures var r := Select(options, default, choice);
      r.Ok? ==> r.value in options || r.value == default
    ensures var r := Select(options, default, choice);
      r.Ok? && r.value != default ==> ValidChoice(options, choice)
  {
  }

  /** With distinct options, the option returned tells which number was typed: two valid choices
      select the same option only when they name the same number. */
  lemma SelectInjective(options: seq<string>, default: string, c1: string, c2: string)
    requires Distinct(options)
    requires ValidChoice(options, c1) && ValidChoice(options, c2)
    requires Select(options, default, c1).Ok?
    requires Select(options, default, c1) == Select(options, default, c2)
    ensures DecimalValue(c1) == DecimalValue(c2)
  {
    var j, k := DecimalValue(c1) - 1, DecimalValue(c2) - 1;
    assert options[j] == options[k];
  }

  /** `display_options_menu`: the encoding menu (default "utf-8") or the error-policy menu (default
      "strict"); any other menu type is a ValueError, raised before the line is read. A known menu
      returns an entry of its own list unless the line is a digit string too long for `int()`. */
  function Menu(menuType: string, choice: string): (r: Result<string, MenuError>)
    ensures r == Err(UnknownMenuType) <==> menuType != "encoding" && menuType != "error"
    ensures r == Err(DigitLimitExceeded) <==>
      (menuType == "encoding" || menuType == "error") && OverDigitLimit(choice)
    ensures r.Ok? && menuType == "encoding" ==> r.value in Encodings
    ensures r.Ok? && menuType == "error" ==> r.value in ErrorPolicies
  {
    if menuType == "encoding" then
      SelectBounded(Encodings, Encodings[2], choice);
      Select(Encodings, Encodings[2], choice)
    else if menuType == "error" then
      SelectBounded(ErrorPolicies, ErrorPolicies[0], choice);
      Select(ErrorPolicies, ErrorPolicies[0], choice)
    else Err(UnknownMenuType)
  }

  /** In either menu, the number printed beside an option selects it; an empty line, or a number past
      the end of the list that `int()` still accepts, selects the default; and a number of more digits
      than `int()` accepts is a ValueError. */
  lemma MenuChoices(k: nat, n: nat)
    ensures k < |Encodings| ==> Menu("encoding", Decimal(k + 1)) == Ok(Encodings[k])
    ensures k < |ErrorPolicies| ==> Menu("error", Decimal(k + 1)) == Ok(ErrorPolicies[k])
    ensures Menu("encoding", "") == Ok("utf-8") && Menu("error", "") == Ok("strict")
    ensures n > |Encodings| && |Decimal(n)| <= MaxStrDigits ==> Menu("encoding", Decimal(n)) == Ok("utf-8")
    ensures n > |ErrorPolicies| && |Decimal(n)| <= MaxStrDigits ==> Menu("error", Decimal(n)) == Ok("strict")
    ensures |Decimal(n)| > MaxStrDigits ==>
      Menu("encoding", Decimal(n)) == Err(DigitLimitExceeded) && Menu("error", Decimal(n)) == Err(DigitLimitExceeded)
  {
    if k < |Encodings| {
      DecimalDigits(k + 1, 2);
    }
  }
}

=== FILE: encode_view_table.dfy ===
/** `format_table` of encode_view.py: a plain-text table with a header line, a rule line and one
    line per row, every column padded to its widest cell. Cells are the strings `str` gives for
    them; a row may have more cells than there are headers (the extra ones are not shown) but not
    fewer (the source raises IndexError then, which the precondition excludes). */
module TableFormat {
  import opened Text

  /** Every row has a cell for every header. */
  predicate WellShaped(rows: seq<seq<string>>, headers: seq<string>)
  {
    forall r :: 0 <= r < |rows| ==> |rows[r]| >= |headers|
  }

  /** No cell, shown or not, contains a line break. */
  predicate NoLineBreaks(rows: seq<seq<string>>, headers: seq<string>)
  {
    && (forall i :: 0 <= i < |headers| ==> '\n' !in headers[i])
    && (forall r, i :: 0 <= r < |rows| && 0 <= i < |rows[r]| ==> '\n' !in rows[r][i])
  }

  /** The length of the longest string of a non-empty list. */
  function MaxLength(cells: seq<string>): (m: nat)
    requires |cells| > 0
    ensures forall k :: 0 <= k < |cells| ==> |cells[k]| <= m
    ensures exists k :: 0 <= k < |cells| && |cells[k]| == m
  {
    if |cells| == 1 then |cells[0]|
    else
      var rest := MaxLength(cells[1..]);
      var k :| 0 <= k < |cells[1..]| && |cells[1..][k]| == rest;
      assert |cells[k + 1]| == rest;
      if |cells[0]| >= rest then |cells[0]| else rest
  }

  /** Cell i of the header and of every row. */
  function Column(rows: seq<seq<string>>, headers: seq<string>, i: nat): (col: seq<string>)
    requires WellShaped(rows, headers) && i < |headers|
    ensures |col| == |rows| + 1
    ensures col[0] == headers[i]
    ensures forall r :: 0 <= r < |rows| ==> col[r + 1] == rows[r][i]
  {
    [headers[i]] + seq(|rows|, r requires 0 <= r < |rows| => rows[r][i])
  }

  /** `col_widths`: for each header, the length of the longest cell in its column. */
  function ColumnWidths(rows: seq<seq<string>>, headers: seq<string>): (widths: seq<nat>)
    requires WellShaped(rows, headers)
    ensures |widths| == |headers|
  {
    seq(|headers|, i requires 0 <= i < |headers| => MaxLength(Column(rows, headers, i)))
  }

  /** Each width fits every cell of its column and is the length of one of them. */
  lemma ColumnWidthsFit(rows: seq<seq<string>>, headers: seq<string>, i: nat)
    requires WellShaped(rows, headers) && i < |headers|
    ensures |headers[i]| <= ColumnWidths(rows, headers)[i]
    ensures forall r :: 0 <= r < |rows| ==> |rows[r][i]| <= ColumnWidths(rows, headers)[i]
    ensures ColumnWidths(rows, headers)[i] == |headers[i]|
            || exists r :: 0 <= r < |rows| && ColumnWidths(rows, headers)[i] == |rows[r][i]|
  {
    var col := Column(rows, headers, i);
    var w := ColumnWidths(rows, headers)[i];
    assert w == MaxLength(col);
    assert |col[0]| <= w;
    forall r | 0 <= r < |rows|
      ensures |rows[r][i]| <= w
    {
      assert |col[r + 1]| <= w;
    }
    var k :| 0 <= k < |col| && |col[k]| == w;
    if k > 0 {
      assert |rows[k - 1][i]| == w;
    }
  }

  /** The cells of a line, each padded on the right to its column's width. */
  function PaddedCells(cells: seq<string>, widths: seq<nat>): (padded: seq<string>)
    requires |cells| >= |widths|
    ensures |padded| == |widths|
    ensures forall i :: 0 <= i < |widths| ==> padded[i] == PadRight(cells[i], widths[i])
  {
    seq(|widths|, i requires 0 <= i < |widths| => PadRight(cells[i], widths[i]))
  }

  /** `fmt_row`: the padded cells joined by " | ". */
  function FormatRow(cells: seq<string>, widths: seq<nat>): string
    requires |cells| >= |widths|
  {
    Join(" | ", PaddedCells(cells, widths))
  }

  function Dashes(widths: seq<nat>): (parts: seq<string>)
    ensures |parts| == |widths|
    ensures forall i :: 0 <= i < |widths| ==> parts[i] == Repeat('-', widths[i])
  {
    seq(|widths|, i requires 0 <= i < |widths| => Repeat('-', widths[i]))
  }

  /** `line`: a run of dashes as wide as each column, joined by "-+-". */
  function RuleLine(widths: seq<nat>): string
  {
    Join("-+-", Dashes(widths))
  }

  /** Every row is wide enough to show one cell per column. */
  predicate Covers(rows: seq<seq<string>>, widths: seq<nat>)
  {
    forall r :: 0 <= r < |rows| ==> |rows[r]| >= |widths|
  }

  /** The lines of a table laid out with the given column widths: header, rule, then one per row. */
  function Lines(rows: seq<seq<string>>, headers: seq<string>, widths: seq<nat>): (lines: seq<string>)
    requires |headers| >= |widths| && Covers(rows, widths)
    ensures |lines| == |rows| + 2
    ensures lines[0] == FormatRow(headers, widths) && lines[1] == RuleLine(widths)
    ensures forall r :: 0 <= r < |rows| ==> lines[r + 2] == FormatRow(rows[r], widths)
  {
    [FormatRow(headers, widths), RuleLine(widths)]
      + seq(|rows|, r requires 0 <= r < |rows| => FormatRow(rows[r], widths))
  }

  /** The lines `format_table` joins: laid out with the columns' own widths. */
  function TableLines(rows: seq<seq<string>>, headers: seq<string>): (lines: seq<string>)
    requires WellShaped(rows, headers)
    ensures |lines| == |rows| + 2
  {
    Lines(rows, headers, ColumnWidths(rows, headers))
  }

  /** `format_table`: the lines joined by line breaks. */
  function FormatTable(rows: seq<seq<string>>, headers: seq<string>): string
    requires WellShaped(rows, headers)
  {
    Join("\n", TableLines(rows, headers))
  }

  // ---------------------------------------------------------------------------
  // Layout

  /** The width every line of a table with these column widths has. */
  function LineWidth(widths: seq<nat>): nat
  {
    if |widths| == 0 then 0 else Sum(widths) + 3 * (|widths| - 1)
  }

  /** A cell fits its column. */
  predicate Fits(cells: seq<string>, widths: seq<nat>)
    requires |cells| >= |widths|
  {
    forall i :: 0 <= i < |widths| ==> |cells[i]| <= widths[i]
  }

  lemma PaddedLengths(cells: seq<string>, widths: seq<nat>)
    requires |cells| >= |widths| && Fits(cells, widths)
    ensures Lengths(PaddedCells(cells, widths)) == widths
  {
  }

  /** A formatted line whose cells fit their columns is exactly as wide as the table. */
  lemma FormatRowWidth(cells: seq<string>, widths: seq<nat>)
    requires |cells| >= |widths| && Fits(cells, widths)
    ensures |FormatRow(cells, widths)| == LineWidth(widths)
  {
    if |widths| > 0 {
      PaddedLengths(cells, widths);
      JoinLength(" | ", PaddedCells(cells, widths));
    }
  }

  /** The rule line is as wide as the table. */
  lemma RuleLineWidth(widths: seq<nat>)
    ensures |RuleLine(widths)| == LineWidth(widths)
  {
    if |widths| > 0 {
      assert Lengths(Dashes(widths)) == widths;
      JoinLength("-+-", Dashes(widths));
    }
  }

  /** Cell i of a formatted line starts after the wider cells before it and their " | " separators:
      the cell's text is there, then spaces up to the column's width, then " | " unless it is the
      last column. */
  lemma CellPlacement(cells: seq<string>, widths: seq<nat>, i: nat)
    requires |cells| >= |widths| && Fits(cells, widths) && i < |widths|
    ensures var line := FormatRow(cells, widths);
      var at := Sum(widths[..i]) + 3 * i;
      && at + widths[i] <= |line|
      && line[at .. at + |cells[i]|] == cells[i]
      && (forall p :: at + |cells[i]| <= p < at + widths[i] ==> line[p] == ' ')
      && (i + 1 < |widths| ==> at + widths[i] + 3 <= |line| && line[at + widths[i] .. at + widths[i] + 3] == " | ")
  {
    var padded := PaddedCells(cells, widths);
    var line := FormatRow(cells, widths);
    var at := Sum(widths[..i]) + 3 * i;
    PaddedOffset(cells, widths, i);
    JoinPartAt(" | ", padded, i);
    var c, w := cells[i], widths[i];
    var slot := line[at .. at + w];
    assert slot == PadRight(c, w);
    assert line[at .. at + |c|] == slot[..|c|];
    forall p | at + |c| <= p < at + w
      ensures line[p] == ' '
    {
      assert line[p] == slot[p - at];
    }
  }

  /** In a formatted line, the padded cell i starts at the widths before it plus one separator each. */
  lemma PaddedOffset(cells: seq<string>, widths: seq<nat>, i: nat)
    requires |cells| >= |widths| && Fits(cells, widths) && i < |widths|
    ensures PartOffset(" | ", PaddedCells(cells, widths), i) == Sum(widths[..i]) + 3 * i
    ensures |PaddedCells(cells, widths)[i]| == widths[i]
  {
    var padded := PaddedCells(cells, widths);
    PaddedLengths(cells, widths);
    assert Lengths(padded[..i]) == widths[..i];
  }

  /** The cells line k shows: the header for k == 0, row k - 2 for k >= 2. */
  function LineCells(rows: seq<seq<string>>, headers: seq<string>, widths: seq<nat>, k: nat): (cells: seq<string>)
    requires |headers| >= |widths| && Covers(rows, widths) && k != 1 && k < |rows| + 2
    ensures |cells| >= |widths|
    ensures Lines(rows, headers, widths)[k] == FormatRow(cells, widths)
  {
    if k == 0 then headers else rows[k - 2]
  }

  /** Every cell, header or row, fits its column. */
  predicate AllFit(rows: seq<seq<string>>, headers: seq<string>, widths: seq<nat>)
    requires |headers| >= |widths| && Covers(rows, widths)
  {
    Fits(headers, widths) && forall r :: 0 <= r < |rows| ==> Fits(rows[r], widths)
  }

  /** The columns' own widths fit every cell. */
  lemma ColumnWidthsFitAll(rows: seq<seq<string>>, headers: seq<string>)
    requires WellShaped(rows, headers)
    ensures Covers(rows, ColumnWidths(rows, headers))
    ensures AllFit(rows, headers, ColumnWidths(rows, headers))
  {
    var widths := ColumnWidths(rows, headers);
    forall i | 0 <= i < |widths|
      ensures |headers[i]| <= widths[i]
      ensures forall r :: 0 <= r < |rows| ==> |rows[r][i]| <= widths[i]
    {
      ColumnWidthsFit(rows, headers, i);
    }
  }

  lemma LineWidthAt(rows: seq<seq<string>>, headers: seq<string>, widths: seq<nat>, k: nat)
    requires |headers| >= |widths| && Covers(rows, widths) && AllFit(rows, headers, widths)
    requires k < |rows| + 2
    ensures |Lines(rows, headers, widths)[k]| == LineWidth(widths)
  {
    if k == 1 {
      RuleLineWidth(widths);
    } else {
      var cells := LineCells(rows, headers, widths, k);
      assert Fits(cells, widths);
      FormatRowWidth(cells, widths);
    }
  }

  /** Every line of the table — header, rule and each row — is exactly as wide as every other. */
  lemma TableLinesUniform(rows: seq<seq<string>>, headers: seq<string>)
    requires WellShaped(rows, headers)
    ensures forall k :: 0 <= k < |TableLines(rows, headers)| ==>
      |TableLines(rows, headers)[k]| == LineWidth(ColumnWidths(rows, headers))
  {
    var widths := ColumnWidths(rows, headers);
    ColumnWidthsFitAll(rows, headers);
    forall k | 0 <= k < |rows| + 2
      ensures |Lines(rows, headers, widths)[k]| == LineWidth(widths)
    {
      LineWidthAt(rows, headers, widths, k);
    }
  }

  /** Padding adds only spaces, so a padded cell holds a line break only if the cell does. */
  lemma PaddedAvoids(cell: string, w: nat, c: char)
    requires c != ' ' && c !in cell
    ensures c !in PadRight(cell, w)
  {
    var p := PadRight(cell, w);
    forall j | 0 <= j < |p|
      ensures p[j] != c
    {
      if j < |cell| {
        assert p[j] == p[..|cell|][j];
      }
    }
  }

  /** No cell that a line shows holds a line break. */
  predicate ShownCellsAvoid(cells: seq<string>, widths: seq<nat>, c: char)
    requires |cells| >= |widths|
  {
    forall i :: 0 <= i < |widths| ==> c !in cells[i]
  }

  lemma FormatRowAvoids(cells: seq<string>, widths: seq<nat>, c: char)
    requires |cells| >= |widths| && ShownCellsAvoid(cells, widths, c)
    requires c != ' ' && c != '|'
    ensures c !in FormatRow(cells, widths)
  {
    var padded := PaddedCells(cells, widths);
    forall i | 0 <= i < |padded|
      ensures c !in padded[i]
    {
      PaddedAvoids(cells[i], widths[i], c);
    }
    JoinAvoids(" | ", padded, c);
  }

  lemma LineAvoidsLineBreaks(rows: seq<seq<string>>, headers: seq<string>, widths: seq<nat>, k: nat)
    requires |headers| >= |widths| && Covers(rows, widths) && NoLineBreaks(rows, headers)
    requires k < |rows| + 2
    ensures '\n' !in Lines(rows, headers, widths)[k]
  {
    if k == 1 {
      JoinAvoids("-+-", Dashes(widths), '\n');
    } else {
      var cells := LineCells(rows, headers, widths, k);
      assert ShownCellsAvoid(cells, widths, '\n') by {
        if k >= 2 {
          assert cells == rows[k - 2];
        }
      }
      FormatRowAvoids(cells, widths, '\n');
    }
  }

  /** No line of the table contains a line break when no cell does. */
  lemma LinesAvoidLineBreaks(rows: seq<seq<string>>, headers: seq<string>)
    requires WellShaped(rows, headers) && NoLineBreaks(rows, headers)
    ensures forall k :: 0 <= k < |TableLines(rows, headers)| ==> '\n' !in TableLines(rows, headers)[k]
  {
    var widths := ColumnWidths(rows, headers);
    ColumnWidthsFitAll(rows, headers);
    forall k | 0 <= k < |rows| + 2
      ensures '\n' !in Lines(rows, headers, widths)[k]
    {
      LineAvoidsLineBreaks(rows, headers, widths, k);
    }
  }

  /** Splitting the table text at line breaks gives back the header, the rule and the rows, one per
      line and in order — provided no cell holds a line break of its own. */
  lemma FormatTableLines(rows: seq<seq<string>>, headers: seq<string>)
    requires WellShaped(rows, headers) && NoLineBreaks(rows, headers)
    ensures Split(FormatTable(rows, headers), '\n') == TableLines(rows, headers)
    ensures |Split(FormatTable(rows, headers), '\n')| == |rows| + 2
  {
    LinesAvoidLineBreaks(rows, headers);
    SplitJoin(TableLines(rows, headers), '\n');
  }
}

=== FILE: fermat.dfy ===
/** `fermat_primality_test` of fermat_primality_test.py. The random bases the source draws with
    `random.randint(2, n - 2)` are the sequence `witnesses`, one per round, so the number of rounds
    `k` is its length. The float probability `passed_tests / k` is the exact rational
    `passed / k` as a `real`. */
module FermatTest {
  import opened Wrappers
  import opened NumberTheory

  /** What the test returns: the verdict and the share of rounds that passed. */
  datatype Verdict = Verdict(probablyPrime: bool, probability: real)

  /** `passed_tests / k` with `k == 0` raises ZeroDivisionError. */
  datatype TestError = ZeroDivision

  /** n gets past the early returns: it is above 3 and divisible by neither 2 nor 3. */
  predicate Screened(n: int)
  {
    n > 3 && n % 2 != 0 && n % 3 != 0
  }

  /** Every base lies in the range `random.randint(2, n - 2)` draws from. */
  predicate WitnessesInRange(n: int, witnesses: seq<int>)
  {
    forall j :: 0 <= j < |witnesses| ==> 2 <= witnesses[j] <= n - 2
  }

  /** One round: `pow(a, n - 1, n) == 1`. */
  predicate Passes(n: int, a: int)
    requires n > 1
  {
    ModPow(a, n - 1, n) == 1
  }

  /** The number of rounds that pass. */
  function PassCount(n: int, witnesses: seq<int>): (c: nat)
    requires n > 1
    ensures c <= |witnesses|
    ensures c == |witnesses| <==> forall j :: 0 <= j < |witnesses| ==> Passes(n, witnesses[j])
  {
    if |witnesses| == 0 then 0
    else
      var last := witnesses[|witnesses| - 1];
      var before := witnesses[..|witnesses| - 1];
      assert forall j :: 0 <= j < |before| ==> before[j] == witnesses[j];
      PassCount(n, before) + if Passes(n, last) then 1 else 0
  }

  /** The indices of the rounds that pass. */
  function PassingRounds(n: int, witnesses: seq<int>): set<nat>
    requires n > 1
  {
    set j: nat | j < |witnesses| && Passes(n, witnesses[j])
  }

  /** `passed_tests` is the number of rounds whose base passes. */
  lemma {:induction false} PassCountCountsPassingRounds(n: int, witnesses: seq<int>)
    requires n > 1
    ensures PassCount(n, witnesses) == |PassingRounds(n, witnesses)|
    decreases |witnesses|
  {
    if |witnesses| > 0 {
      var last := |witnesses| - 1;
      var before := witnesses[..last];
      PassCountCountsPassingRounds(n, before);
      var earlier := PassingRounds(n, before);
      assert forall j :: 0 <= j < last ==> before[j] == witnesses[j];
      if Passes(n, witnesses[last]) {
        assert PassingRounds(n, witnesses) == earlier + {last};
        assert last !in earlier;
      } else {
        assert PassingRounds(n, witnesses) == earlier;
      }
    }
  }

  /** The counting loop: one modular power per base, counting those that give 1. */
  method CountPasses(n: int, witnesses: seq<int>) returns (passed: nat)
    requires n > 1
    ensures passed == PassCount(n, witnesses)
  {
    passed := 0;
    var i := 0;
    while i < |witnesses|
      invariant 0 <= i <= |witnesses|
      invariant passed == PassCount(n, witnesses[..i])
    {
      assert witnesses[..i + 1][..i] == witnesses[..i];
      if ModPow(witnesses[i], n - 1, n) == 1 {
        passed := passed + 1;
      }
      i := i + 1;
    }
    assert witnesses[..|witnesses|] == witnesses;
  }

  /** A number that gets past the early returns is at least 5, so the range the bases are drawn
      from, 2 to n - 2, is not empty. */
  lemma ScreenedAtLeastFive(n: int)
    requires Screened(n)
    ensures n >= 5 && 2 <= n - 2
  {
  }

  /** `fermat_primality_test(n, k)` with the bases drawn in advance. */
  function FermatPrimalityTest(n: int, witnesses: seq<int>): (r: Result<Verdict, TestError>)
    requires Screened(n) ==> WitnessesInRange(n, witnesses)
    ensures n <= 1 ==> r == Ok(Verdict(false, 0.0))
    ensures 2 <= n <= 3 ==> r == Ok(Verdict(true, 1.0))
    ensures n > 3 && !Screened(n) ==> r == Ok(Verdict(false, 0.0))
    ensures Screened(n) && |witnesses| == 0 ==> r == Err(ZeroDivision)
    ensures Screened(n) && |witnesses| > 0 ==>
      && r.Ok?
      && r.value.probability == PassCount(n, witnesses) as real / |witnesses| as real
      && (r.value.probablyPrime <==> forall j :: 0 <= j < |witnesses| ==> Passes(n, witnesses[j]))
  {
    if n <= 1 then Ok(Verdict(false, 0.0))
    else if n <= 3 then Ok(Verdict(true, 1.0))
    else if n % 2 == 0 || n % 3 == 0 then Ok(Verdict(false, 0.0))
    else
      var passed := PassCount(n, witnesses);
      var k := |witnesses|;
      if k == 0 then Err(ZeroDivision)
      else Ok(Verdict(passed == k, passed as real / k as real))
  }

  /** The verdict is "probably prime" exactly when the probability reported is 1, and the
      probability is a share: between 0 and 1. */
  lemma VerdictMatchesProbability(n: int, witnesses: seq<int>)
    requires Screened(n) ==> WitnessesInRange(n, witnesses)
    requires FermatPrimalityTest(n, witnesses).Ok?
    ensures var v := FermatPrimalityTest(n, witnesses).value;
      && 0.0 <= v.probability <= 1.0
      && (v.probablyPrime <==> v.probability == 1.0)
  {
    if Screened(n) {
      ShareBounds(PassCount(n, witnesses), |witnesses|);
    }
  }

  lemma ShareBounds(passed: nat, k: nat)
    requires 0 < k && passed <= k
    ensures 0.0 <= passed as real / k as real <= 1.0
    ensures passed as real / k as real == 1.0 <==> passed == k
  {
    var kr, pr := k as real, passed as real;
    var x := pr / kr;
    assert x * kr == pr;
    SignOfFactor(x, kr, pr);
    SignOfFactor(1.0 - x, kr, kr - pr);
  }

  /** A factor of a product with a positive factor has the product's sign. */
  lemma SignOfFactor(y: real, c: real, z: real)
    requires c > 0.0 && y * c == z
    ensures z >= 0.0 ==> y >= 0.0
    ensures z == 0.0 ==> y == 0.0
    ensures z > 0.0 ==> y > 0.0
  {
  }

  /** A prime passes: every base in range satisfies Fermat's little theorem, so the verdict on a prime
      is "probably prime" with probability 1 (unless there are no rounds to divide by). */
  lemma PrimeVerdict(n: int, witnesses: seq<int>)
    requires IsPrime(n)
    requires Screened(n) ==> WitnessesInRange(n, witnesses)
    requires n <= 3 || |witnesses| > 0
    ensures FermatPrimalityTest(n, witnesses) == Ok(Verdict(true, 1.0))
  {
    if n > 3 {
      assert n % 2 != 0 && n % 3 != 0;
      forall j | 0 <= j < |witnesses|
        ensures Passes(n, witnesses[j])
      {
        FermatLittleUnit(witnesses[j], n);
      }
      var k := |witnesses| as real;
      assert k / k == 1.0;
    }
  }

  /** The verdict "not prime" is never wrong: a number of at least 2 that the test rejects has a
      divisor strictly between 1 and itself. */
  lemma RejectedIsComposite(n: int, witnesses: seq<int>)
    requires n >= 2
    requires Screened(n) ==> WitnessesInRange(n, witnesses)
    requires FermatPrimalityTest(n, witnesses).Ok?
    requires !FermatPrimalityTest(n, witnesses).value.probablyPrime
    ensures IsComposite(n)
  {
    if IsPrime(n) {
      PrimeVerdict(n, witnesses);
    }
  }

  /** The verdict "probably prime" can be wrong: 7 is a Fermat liar for the composite 25. */
  lemma FermatLiar()
    ensures FermatPrimalityTest(25, [7]) == Ok(Verdict(true, 1.0))
    ensures IsComposite(25)
  {
    assert ModPow(7, 24, 25) == 1;
    assert 25 % 5 == 0;
  }

  /** The source's own example: 7 is judged prime with probability 1 whatever bases are drawn. */
  lemma SevenIsProbablyPrime(witnesses: seq<int>)
    requires |witnesses| > 0 && WitnessesInRange(7, witnesses)
    ensures FermatPrimalityTest(7, witnesses) == Ok(Verdict(true, 1.0))
  {
    assert IsPrime(7);
    PrimeVerdict(7, witnesses);
  }
}

=== FILE: heap_sort.dfy ===
/** Heap sort over an implicit binary tree stored in a sequence (heap_sort.py).
    The Python code sorts a list in place; here the list is a value: each operation
    takes the current contents and returns the new contents. */
module HeapSort {

  // ---------------------------------------------------------------------------
  // The implicit tree: node j > 0 has parent (j - 1) / 2, node i has children 2i+1, 2i+2.

  function Parent(j: nat): nat
    requires j > 0
  {
    (j - 1) / 2
  }

  function Left(i: nat): nat { 2 * i + 1 }

  function Right(i: nat): nat { 2 * i + 2 }

  /** Node j lies in the subtree rooted at `root`. */
  predicate InSubtree(root: nat, j: nat)
    decreases j
  {
    j == root || (j > root && InSubtree(root, Parent(j)))
  }

  /** Every parent in the subtree of `root` dominates its children among the first n positions. */
  predicate SubtreeHeap(a: seq<int>, n: nat, root: nat)
    requires n <= |a|
  {
    forall j :: 0 < j < n && InSubtree(root, Parent(j)) ==> a[Parent(j)] >= a[j]
  }

  /** The subtrees rooted at the children of `root` are max-heaps; `root` itself may be out of place. */
  predicate ChildSubtreesHeap(a: seq<int>, n: nat, root: nat)
    requires n <= |a|
  {
    forall j :: 0 < j < n && InSubtree(root, Parent(j)) && Parent(j) != root ==> a[Parent(j)] >= a[j]
  }

  /** Every node numbered lo or above dominates its children among the first n positions. */
  predicate HeapFrom(a: seq<int>, n: nat, lo: int)
    requires n <= |a|
  {
    forall j :: 0 < j < n && Parent(j) >= lo ==> a[Parent(j)] >= a[j]
  }

  /** The first n positions form a max-heap. */
  predicate IsMaxHeap(a: seq<int>, n: nat)
    requires n <= |a|
  {
    forall j :: 0 < j < n ==> a[Parent(j)] >= a[j]
  }

  predicate SortedBetween(a: seq<int>, lo: int, hi: int)
    requires 0 <= lo && hi <= |a|
  {
    forall p, q :: lo <= p < q < hi ==> a[p] <= a[q]
  }

  predicate Sorted(a: seq<int>)
  {
    SortedBetween(a, 0, |a|)
  }

  function Swap(a: seq<int>, x: nat, y: nat): (b: seq<int>)
    requires x < |a| && y < |a|
    ensures |b| == |a|
    ensures b[x] == a[y] && b[y] == a[x]
    ensures forall k :: 0 <= k < |a| && k != x && k != y ==> b[k] == a[k]
  {
    a[x := a[y]][y := a[x]]
  }

  // ---------------------------------------------------------------------------
  // Facts about the implicit tree.

  lemma {:induction false} SubtreeAbove(root: nat, j: nat)
    requires InSubtree(root, j)
    ensures j >= root
    decreases j
  {
    if j != root {
      SubtreeAbove(root, Parent(j));
    }
  }

  lemma {:induction false} SubtreeTransitive(r: nat, m: nat, j: nat)
    requires InSubtree(r, m) && InSubtree(m, j)
    ensures InSubtree(r, j)
    decreases j
  {
    if j != m {
      SubtreeTransitive(r, m, Parent(j));
      SubtreeAbove(m, Parent(j));
      SubtreeAbove(r, m);
    }
  }

  lemma {:induction false} EverythingBelowRoot(j: nat)
    ensures InSubtree(0, j)
    decreases j
  {
    if j > 0 {
      EverythingBelowRoot(Parent(j));
    }
  }

  /** The root of a max-heap holds its maximum. */
  lemma {:induction false} HeapRootIsMax(a: seq<int>, n: nat, j: nat)
    requires n <= |a| && IsMaxHeap(a, n) && j < n
    ensures a[0] >= a[j]
    decreases j
  {
    if j > 0 {
      HeapRootIsMax(a, n, Parent(j));
    }
  }

  lemma SwapPrefixMultiset(a: seq<int>, n: nat, x: nat, y: nat)
    requires n <= |a| && x < n && y < n
    ensures multiset(Swap(a, x, y)[..n]) == multiset(a[..n])
    ensures Swap(a, x, y)[n..] == a[n..]
  {
    var b := Swap(a, x, y);
    assert b[..n] == a[..n][x := a[y]][y := a[x]];
  }

  /** A bound on every element of a prefix survives a rearrangement of that prefix. */
  lemma BoundSurvivesPermutation(a: seq<int>, b: seq<int>, n: nat, v: int)
    requires n <= |a| && n <= |b|
    requires multiset(b[..n]) == multiset(a[..n])
    requires forall k :: 0 <= k < n ==> a[k] <= v
    ensures forall k :: 0 <= k < n ==> b[k] <= v
  {
    forall k | 0 <= k < n
      ensures b[k] <= v
    {
      assert b[k] in multiset(b[..n]) by { assert b[..n][k] == b[k]; }
      assert b[k] in a[..n];
    }
  }

  // ---------------------------------------------------------------------------
  // heapify (heap_sort.py:1-14)

  /** The index among i and its children (within the first n positions) holding the largest value,
      preferring i, then the left child, on ties. */
  function Largest(a: seq<int>, n: nat, i: nat): (m: nat)
    requires n <= |a|
    ensures m == i || (m < n && (m == Left(i) || m == Right(i)))
    ensures m < n ==> a[m] >= a[i]
    ensures m < n && Left(i) < n ==> a[m] >= a[Left(i)]
    ensures m < n && Right(i) < n ==> a[m] >= a[Right(i)]
    ensures m != i ==> a[m] > a[i]
    ensures m == i <==> (Left(i) >= n || a[Left(i)] <= a[i]) && (Right(i) >= n || a[Right(i)] <= a[i])
    ensures Left(i) < n && a[Left(i)] > a[i] && (Right(i) >= n || a[Right(i)] <= a[Left(i)]) ==> m == Left(i)
  {
    var l := if Left(i) < n && a[Left(i)] > a[i] then Left(i) else i;
    if Right(i) < n && a[Right(i)] > a[l] then Right(i) else l
  }

  /** Sift the value at node i down the heap of the first n positions. */
  function Heapify(a: seq<int>, n: nat, i: nat): (r: seq<int>)
    requires n <= |a|
    ensures |r| == |a|
    ensures multiset(r[..n]) == multiset(a[..n])
    ensures r[n..] == a[n..]
    ensures forall k :: 0 <= k < |a| && !InSubtree(i, k) ==> r[k] == a[k]
    decreases n - i
  {
    var m := Largest(a, n, i);
    if m == i then a
    else
      var b := Swap(a, i, m);
      SwapPrefixMultiset(a, n, i, m);
      var r := Heapify(b, n, m);
      assert forall k :: 0 <= k < |a| && !InSubtree(i, k) ==> !InSubtree(m, k) by {
        forall k | 0 <= k < |a| && InSubtree(m, k)
          ensures InSubtree(i, k)
        {
          SubtreeTransitive(i, m, k);
        }
      }
      r
  }

  /** After swapping i with its largest child m, the children of m still root max-heaps. */
  lemma SwapKeepsChildHeaps(a: seq<int>, n: nat, i: nat, m: nat)
    requires n <= |a| && ChildSubtreesHeap(a, n, i)
    requires m == Largest(a, n, i) && m != i
    ensures ChildSubtreesHeap(Swap(a, i, m), n, m)
  {
    var b := Swap(a, i, m);
    assert InSubtree(i, m);
    forall j | 0 < j < n && InSubtree(m, Parent(j)) && Parent(j) != m
      ensures b[Parent(j)] >= b[j]
    {
      SubtreeAbove(m, Parent(j));
      SubtreeTransitive(i, m, Parent(j));
    }
  }

  /** The subtree of i is a max-heap once the subtree of its largest child m is one again,
      i holds m's old value, m's new value does not exceed it, and nothing else moved. */
  lemma AssembleSubtreeHeap(a: seq<int>, r: seq<int>, n: nat, i: nat, m: nat)
    requires n <= |a| && |r| == |a|
    requires ChildSubtreesHeap(a, n, i)
    requires m == Largest(a, n, i) && m != i
    requires SubtreeHeap(r, n, m)
    requires r[i] == a[m] && r[m] <= a[m]
    requires forall k :: 0 <= k < |a| && !InSubtree(m, k) && k != i ==> r[k] == a[k]
    ensures SubtreeHeap(r, n, i)
  {
    forall j | 0 < j < n && InSubtree(i, Parent(j))
      ensures r[Parent(j)] >= r[j]
    {
      var p := Parent(j);
      if p == i {
        if j != m && InSubtree(m, j) {
          SubtreeAbove(m, j);
        }
      } else if !InSubtree(m, p) {
        SubtreeAbove(i, p);
      }
    }
  }

  /** If the children of i root max-heaps, then after Heapify the subtree of i is a max-heap,
      and node i holds the largest of its old value and its children's. */
  lemma {:induction false} HeapifyRestoresHeap(a: seq<int>, n: nat, i: nat)
    requires n <= |a|
    requires ChildSubtreesHeap(a, n, i)
    ensures SubtreeHeap(Heapify(a, n, i), n, i)
    ensures i < n ==> Heapify(a, n, i)[i] == a[Largest(a, n, i)]
    decreases n - i
  {
    var m := Largest(a, n, i);
    if m != i {
      var b := Swap(a, i, m);
      SwapKeepsChildHeaps(a, n, i, m);
      HeapifyRestoresHeap(b, n, m);
      var r := Heapify(b, n, m);
      assert !InSubtree(m, i) by {
        if InSubtree(m, i) {
          SubtreeAbove(m, i);
        }
      }
      SwappedChildBound(a, n, i, m);
      AssembleSubtreeHeap(a, r, n, i, m);
    }
  }

  /** After the swap, what rises to m is at most m's old value, which now sits at i. */
  lemma SwappedChildBound(a: seq<int>, n: nat, i: nat, m: nat)
    requires n <= |a| && ChildSubtreesHeap(a, n, i)
    requires m == Largest(a, n, i) && m != i
    ensures Swap(a, i, m)[Largest(Swap(a, i, m), n, m)] <= a[m]
  {
    var b := Swap(a, i, m);
    var m' := Largest(b, n, m);
    if m' != m {
      assert Parent(m') == m;
      assert InSubtree(i, m);
    }
  }

  // ---------------------------------------------------------------------------
  // heap_sort (heap_sort.py:17-27)

  /** The build phase: heapify every internal node from the last one up to the root. */
  method BuildMaxHeap(a: seq<int>) returns (r: seq<int>)
    ensures |r| == |a|
    ensures multiset(r) == multiset(a)
    ensures IsMaxHeap(r, |r|)
    ensures forall k :: 0 <= k < |r| ==> r[0] >= r[k]
  {
    var n := |a|;
    r := a;
    var i := n / 2 - 1;
    assert HeapFrom(r, n, i + 1);
    while i >= 0
      invariant -1 <= i <= n / 2 - 1
      invariant |r| == n
      invariant multiset(r) == multiset(a)
      invariant HeapFrom(r, n, i + 1)
      decreases i + 1
    {
      var s := Heapify(r, n, i);
      assert ChildSubtreesHeap(r, n, i) by {
        forall j | 0 < j < n && InSubtree(i, Parent(j)) && Parent(j) != i
          ensures r[Parent(j)] >= r[j]
        {
          SubtreeAbove(i, Parent(j));
        }
      }
      HeapifyRestoresHeap(r, n, i);
      forall j | 0 < j < n && Parent(j) >= i
        ensures s[Parent(j)] >= s[j]
      {
        if !InSubtree(i, Parent(j)) {
          assert !InSubtree(i, j);
        }
      }
      assert r == r[..n] && s == s[..n];
      r := s;
      i := i - 1;
    }
    forall k | 0 <= k < n
      ensures r[0] >= r[k]
    {
      HeapRootIsMax(r, n, k);
    }
  }

  /** Every element of the first k positions is at most every element from position k on. */
  predicate Partitioned(a: seq<int>, k: int)
  {
    forall p, q :: 0 <= p < k <= q < |a| ==> a[p] <= a[q]
  }

  /** One extraction step (heap_sort.py:26-27): swap the root of the heap a[..i+1] with a[i],
      then sift the new root down the heap a[..i]. */
  function ExtractStep(a: seq<int>, i: nat): (t: seq<int>)
    requires 0 < i < |a|
    ensures |t| == |a|
    ensures multiset(t) == multiset(a)
  {
    var s := Swap(a, 0, i);
    SwapPrefixMultiset(a, |a|, 0, i);
    assert a[..|a|] == a && s[..|s|] == s;
    var t := Heapify(s, i, 0);
    MultisetSplit(s, i);
    MultisetSplit(t, i);
    t
  }

  lemma MultisetSplit(x: seq<int>, i: nat)
    requires i <= |x|
    ensures multiset(x) == multiset(x[..i]) + multiset(x[i..])
  {
    assert x == x[..i] + x[i..];
  }

  /** The extraction step keeps the heap prefix a max-heap, one shorter. */
  lemma ExtractStepKeepsHeap(a: seq<int>, i: nat)
    requires 0 < i < |a| && IsMaxHeap(a, i + 1)
    ensures IsMaxHeap(ExtractStep(a, i), i)
  {
    var s := Swap(a, 0, i);
    assert ChildSubtreesHeap(s, i, 0);
    HeapifyRestoresHeap(s, i, 0);
    var t := Heapify(s, i, 0);
    forall j | 0 < j < i
      ensures t[Parent(j)] >= t[j]
    {
      EverythingBelowRoot(Parent(j));
    }
  }

  /** The extraction step places the heap's maximum at i, in front of the sorted tail. */
  lemma ExtractStepGrowsSortedTail(a: seq<int>, i: nat)
    requires 0 < i < |a| && IsMaxHeap(a, i + 1)
    requires SortedBetween(a, i + 1, |a|) && Partitioned(a, i + 1)
    ensures SortedBetween(ExtractStep(a, i), i, |a|)
    ensures Partitioned(ExtractStep(a, i), i)
  {
    var n := |a|;
    forall k | 0 <= k <= i
      ensures a[0] >= a[k]
    {
      HeapRootIsMax(a, i + 1, k);
    }
    var s := Swap(a, 0, i);
    var t := Heapify(s, i, 0);
    assert forall q :: i <= q < n ==> t[q] == s[q] by {
      forall q | i <= q < n
        ensures t[q] == s[q]
      {
        assert t[i..][q - i] == s[i..][q - i];
      }
    }
    BoundSurvivesPermutation(s, t, i, s[i]);
  }

  /** Heap sort: build a max-heap, then move its root behind the shrinking heap one step at a time. */
  method HeapSort(a: seq<int>) returns (r: seq<int>)
    ensures |r| == |a|
    ensures multiset(r) == multiset(a)
    ensures Sorted(r)
    ensures |a| <= 1 ==> r == a
  {
    var n := |a|;
    r := BuildMaxHeap(a);
    if n == 0 {
      return;
    }
    var i := n - 1;
    while i > 0
      invariant 0 <= i < n
      invariant |r| == n
      invariant multiset(r) == multiset(a)
      invariant IsMaxHeap(r, i + 1)
      invariant SortedBetween(r, i + 1, n)
      invariant Partitioned(r, i + 1)
      decreases i
    {
      ExtractStepKeepsHeap(r, i);
      ExtractStepGrowsSortedTail(r, i);
      r := ExtractStep(r, i);
      i := i - 1;
    }
    if n == 1 {
      SortedPermutationUnique(r, a);
    }
  }

  // ---------------------------------------------------------------------------
  // Consequences

  lemma SortedHeadIsMin(s: seq<int>, x: int)
    requires Sorted(s) && x in multiset(s)
    ensures s[0] <= x
  {
    var j :| 0 <= j < |s| && s[j] == x;
  }

  lemma SortedTail(s: seq<int>)
    requires Sorted(s) && |s| > 0
    ensures Sorted(s[1..])
  {
    assert forall p :: 0 <= p < |s| - 1 ==> s[1..][p] == s[p + 1];
  }

  lemma MultisetTail(s: seq<int>, t: seq<int>)
    requires |s| > 0 && |t| > 0 && s[0] == t[0] && multiset(s) == multiset(t)
    ensures multiset(s[1..]) == multiset(t[1..])
  {
    assert s == [s[0]] + s[1..] && t == [t[0]] + t[1..];
    assert multiset(s) == multiset{s[0]} + multiset(s[1..]);
    assert multiset(t) == multiset{t[0]} + multiset(t[1..]);
    assert multiset(s[1..]) == multiset(s) - multiset{s[0]};
    assert multiset(t[1..]) == multiset(t) - multiset{t[0]};
  }

  /** Two sorted arrangements of the same multiset are equal, so heap sort's result is determined. */
  lemma {:induction false} SortedPermutationUnique(s: seq<int>, t: seq<int>)
    requires Sorted(s) && Sorted(t)
    requires multiset(s) == multiset(t)
    ensures s == t
    decreases |s|
  {
    assert |s| == |t| by {
      assert |s| == |multiset(s)| && |t| == |multiset(t)|;
    }
    if |s| > 0 {
      assert s[0] in multiset(s) && t[0] in multiset(t);
      SortedHeadIsMin(s, t[0]);
      SortedHeadIsMin(t, s[0]);
      MultisetTail(s, t);
      SortedTail(s);
      SortedTail(t);
      SortedPermutationUnique(s[1..], t[1..]);
      assert s == [s[0]] + s[1..] && t == [t[0]] + t[1..];
    }
  }

  /** The example's input and expected output hold the same numbers. */
  lemma ExamplePermutation()
    ensures multiset([2, 8, 5, 3, 9, 1]) == multiset([1, 2, 3, 5, 8, 9])
  {
    assert multiset([2, 8, 5, 3, 9, 1]) == multiset{2, 8, 5, 3, 9, 1};
    assert multiset{2, 8, 5, 3, 9, 1} == multiset{1, 2, 3, 5, 8, 9};
    assert multiset([1, 2, 3, 5, 8, 9]) == multiset{1, 2, 3, 5, 8, 9};
  }

  lemma ExampleSorted()
    ensures Sorted([1, 2, 3, 5, 8, 9])
  {
  }

  /** The example of heap_sort.py:31-33. */
  method SortExample() returns (r: seq<int>)
    ensures r == [1, 2, 3, 5, 8, 9]
  {
    var input := [2, 8, 5, 3, 9, 1];
    var expected := [1, 2, 3, 5, 8, 9];
    r := HeapSort(input);
    ExamplePermutation();
    ExampleSorted();
    SortedPermutationUnique(r, expected);
  }
}

=== FILE: number_theory.dfy ===
/** The arithmetic behind fermat_primality_test.py: powers, Python's three-argument `pow` (binary
    exponentiation modulo m), primality, and Fermat's little theorem, proved from the binomial
    theorem and Euclid's lemma. The renderings of encode_view.py use `Pow` for their digit bounds. */
module NumberTheory {

  // ---------------------------------------------------------------------------
  // Powers

  function Pow(a: int, e: nat): int
  {
    if e == 0 then 1 else a * Pow(a, e - 1)
  }

  lemma {:induction false} PowAdd(a: int, e1: nat, e2: nat)
    ensures Pow(a, e1 + e2) == Pow(a, e1) * Pow(a, e2)
    decreases e1
  {
    if e1 > 0 {
      PowAdd(a, e1 - 1, e2);
      assert Pow(a, e1 + e2) == a * Pow(a, (e1 - 1) + e2);
    }
  }

  lemma {:induction false} PowZeroBase(e: nat)
    requires e > 0
    ensures Pow(0, e) == 0
  {
  }

  // ---------------------------------------------------------------------------
  // Remainders

  lemma MulAwayFromZero(d: int, m: int)
    requires m > 0
    ensures d > 0 ==> d * m >= m
    ensures d < 0 ==> d * m <= -m
  {
  }

  /** Division by a positive modulus has one quotient and one remainder. */
  lemma ModUnique(a: int, m: int, q: int, r: int)
    requires m > 0 && 0 <= r < m && a == q * m + r
    ensures a % m == r
  {
    var d := q - a / m;
    assert d * m == a % m - r;
    MulAwayFromZero(d, m);
  }

  lemma Multiple(q: int, m: int)
    requires m > 0
    ensures (q * m) % m == 0
  {
    ModUnique(q * m, m, q, 0);
  }

  /** Multiples of m are closed under integer linear combinations. */
  lemma Combination(x: int, y: int, a: int, b: int, m: int)
    requires m > 0 && x % m == 0 && y % m == 0
    ensures (a * x + b * y) % m == 0
  {
    var qx, qy := x / m, y / m;
    assert x == qx * m && y == qy * m;
    assert a * x + b * y == (a * qx + b * qy) * m;
    Multiple(a * qx + b * qy, m);
  }

  /** Adding a multiple of m does not change the remainder. */
  lemma ShiftMod(a: int, k: int, m: int)
    requires m > 0
    ensures (k * m + a) % m == a % m
  {
    var q := a / m;
    assert k * m + a == (k + q) * m + a % m;
    ModUnique(k * m + a, m, k + q, a % m);
  }

  lemma MulModLeft(x: int, y: int, m: int)
    requires m > 0
    ensures (x * y) % m == ((x % m) * y) % m
  {
    var q, r := x / m, x % m;
    assert x * y == (q * y) * m + r * y by {
      assert x == q * m + r;
    }
    ShiftMod(r * y, q * y, m);
  }

  lemma MulMod(x: int, y: int, m: int)
    requires m > 0
    ensures (x * y) % m == ((x % m) * (y % m)) % m
  {
    MulModLeft(x, y, m);
    MulModLeft(y, x % m, m);
    assert (x % m) * y == y * (x % m);
    assert (y % m) * (x % m) == (x % m) * (y % m);
  }

  /** Python's `pow(a, e, m)`: binary exponentiation, reducing modulo m after every product. */
  function ModPow(a: int, e: nat, m: int): (r: int)
    requires m > 0
    ensures r == Pow(a, e) % m
    ensures 0 <= r < m
    decreases e
  {
    if e == 0 then 1 % m
    else if e % 2 == 0 then
      var h := ModPow(a, e / 2, m);
      PowAdd(a, e / 2, e / 2);
      MulMod(Pow(a, e / 2), Pow(a, e / 2), m);
      (h * h) % m
    else
      var t := ModPow(a, e - 1, m);
      MulMod(a, Pow(a, e - 1), m);
      MulMod(a % m, Pow(a, e - 1), m);
      ((a % m) * t) % m
  }

  // ---------------------------------------------------------------------------
  // Primes

  predicate IsPrime(n: int)
  {
    n >= 2 && forall d :: 2 <= d < n ==> n % d != 0
  }

  /** n has a divisor strictly between 1 and n. */
  predicate IsComposite(n: int)
  {
    exists d :: 2 <= d < n && n % d == 0
  }

  /** Euclid's lemma for a factor below the prime: if p divides k * c with 0 < k < p, it divides c.
      Writing p = q * k + r with 0 < r < k gives r * c = p * c - q * (k * c), a multiple of p with
      a smaller first factor. */
  lemma {:induction false} PrimeDividesFactor(p: int, k: int, c: int)
    requires IsPrime(p) && 0 < k < p && (k * c) % p == 0
    ensures c % p == 0
    decreases k
  {
    if k > 1 {
      var q, r := p / k, p % k;
      assert 0 < r < k by {
        assert p % k != 0;
      }
      EuclidStep(p, k, c, q, r);
      Multiple(c, p);
      Combination(c * p, k * c, 1, -q, p);
      PrimeDividesFactor(p, r, c);
    }
  }

  lemma EuclidStep(p: int, k: int, c: int, q: int, r: int)
    requires p == q * k + r
    ensures r * c == 1 * (c * p) + (-q) * (k * c)
  {
  }

  // ---------------------------------------------------------------------------
  // Binomial coefficients

  /** Pascal's triangle. */
  function Binom(n: nat, k: nat): nat
  {
    if k == 0 then 1
    else if n == 0 then 0
    else Binom(n - 1, k - 1) + Binom(n - 1, k)
  }

  lemma {:induction false} BinomAbove(n: nat, k: nat)
    requires k > n
    ensures Binom(n, k) == 0
    decreases n
  {
    if n > 0 {
      BinomAbove(n - 1, k - 1);
      BinomAbove(n - 1, k);
    }
  }

  lemma {:induction false} BinomDiagonal(n: nat)
    ensures Binom(n, n) == 1
  {
    if n > 0 {
      BinomDiagonal(n - 1);
      BinomAbove(n - 1, n);
    }
  }

  lemma {:induction false} BinomOne(n: nat)
    ensures Binom(n, 1) == n
  {
    if n > 0 {
      BinomOne(n - 1);
    }
  }

  /** The absorption identity k * C(n, k) == n * C(n - 1, k - 1). */
  lemma {:induction false} Absorption(n: nat, k: nat)
    requires 1 <= k <= n
    ensures k * Binom(n, k) == n * Binom(n - 1, k - 1)
    decreases n
  {
    if k == 1 {
      BinomOne(n);
    } else {
      var a, b := Binom(n - 1, k - 1), Binom(n - 1, k);
      var c1, c2 := Binom(n - 2, k - 2), Binom(n - 2, k - 1);
      assert Binom(n, k) == a + b;
      assert a == c1 + c2;
      Absorption(n - 1, k - 1);
      if k <= n - 1 {
        Absorption(n - 1, k);
      } else {
        BinomAbove(n - 1, k);
        BinomAbove(n - 2, k - 1);
      }
      AbsorptionStep(n, k, a, b, c1, c2);
    }
  }

  lemma AbsorptionStep(n: int, k: int, a: int, b: int, c1: int, c2: int)
    requires a == c1 + c2
    requires (k - 1) * a == (n - 1) * c1
    requires k * b == (n - 1) * c2
    ensures k * (a + b) == n * a
  {
    calc {
      k * (a + b);
      (k - 1) * a + a + k * b;
      (n - 1) * (c1 + c2) + a;
      n * a;
    }
  }

  /** A prime divides every binomial coefficient C(p, k) with 0 < k < p. */
  lemma PrimeDividesBinom(p: nat, k: nat)
    requires IsPrime(p) && 0 < k < p
    ensures Binom(p, k) % p == 0
  {
    Absorption(p, k);
    DividesProduct(p, k, Binom(p, k), Binom(p - 1, k - 1));
    PrimeDividesFactor(p, k, Binom(p, k));
  }

  lemma DividesProduct(p: int, k: int, b: int, b1: int)
    requires p > 0 && k * b == p * b1
    ensures (k * b) % p == 0
  {
    Multiple(b1, p);
    assert k * b == b1 * p;
  }

  /** The first m terms of the expansion of (x + 1)^n: the sum over j < m of C(n, j) * x^j. */
  function BinomSum(x: int, n: nat, m: nat): int
  {
    if m == 0 then 0 else BinomSum(x, n, m - 1) + Binom(n, m - 1) * Pow(x, m - 1)
  }

  lemma {:induction false} PascalSum(x: int, n: nat, m: nat)
    ensures BinomSum(x, n + 1, m + 1) == BinomSum(x, n, m + 1) + x * BinomSum(x, n, m)
    decreases m
  {
    if m > 0 {
      PascalSum(x, n, m - 1);
      assert Binom(n + 1, m) == Binom(n, m - 1) + Binom(n, m);
      assert Pow(x, m) == x * Pow(x, m - 1);
      PascalStep(x, BinomSum(x, n, m - 1), BinomSum(x, n, m), BinomSum(x, n + 1, m),
                 Binom(n, m - 1), Binom(n, m), Pow(x, m - 1), Pow(x, m));
    }
  }

  lemma PascalStep(x: int, s0: int, s1: int, t: int, b1: int, b2: int, q: int, r: int)
    requires s1 == s0 + b1 * q
    requires t == s1 + x * s0
    requires r == x * q
    ensures t + (b1 + b2) * r == (s1 + b2 * r) + x * s1
  {
    calc {
      t + (b1 + b2) * r;
      s1 + x * s0 + b1 * (x * q) + b2 * r;
      s1 + x * (s0 + b1 * q) + b2 * r;
    }
  }

  /** The binomial theorem for (x + 1)^n. */
  lemma {:induction false} BinomialTheorem(x: int, n: nat)
    ensures Pow(x + 1, n) == BinomSum(x, n, n + 1)
    decreases n
  {
    if n > 0 {
      BinomialTheorem(x, n - 1);
      PascalSum(x, n - 1, n);
      BinomAbove(n - 1, n);
      var s := BinomSum(x, n - 1, n);
      assert BinomSum(x, n - 1, n + 1) == s;
      SuccessorTimes(x, s);
    }
  }

  lemma SuccessorTimes(x: int, s: int)
    ensures (x + 1) * s == s + x * s
  {
  }

  /** All terms of the expansion of (x + 1)^p but the first and last are multiples of p. */
  lemma {:induction false} InnerTermsDivisible(x: int, p: nat, m: nat)
    requires IsPrime(p) && 1 <= m <= p
    ensures (BinomSum(x, p, m) - 1) % p == 0
    decreases m
  {
    if m == 1 {
      Multiple(0, p);
    } else {
      InnerTermsDivisible(x, p, m - 1);
      PrimeDividesBinom(p, m - 1);
      Combination(BinomSum(x, p, m - 1) - 1, Binom(p, m - 1), 1, Pow(x, m - 1), p);
    }
  }

  /** (x + 1)^p - x^p - 1 is a multiple of the prime p. */
  lemma FreshmansDream(x: int, p: nat)
    requires IsPrime(p)
    ensures (Pow(x + 1, p) - Pow(x, p) - 1) % p == 0
  {
    BinomialTheorem(x, p);
    InnerTermsDivisible(x, p, p);
    BinomDiagonal(p);
    assert Pow(x + 1, p) == BinomSum(x, p, p) + Pow(x, p);
  }

  /** Fermat's little theorem: x^p - x is a multiple of the prime p. */
  lemma {:induction false} FermatLittle(x: nat, p: nat)
    requires IsPrime(p)
    ensures (Pow(x, p) - x) % p == 0
    decreases x
  {
    if x == 0 {
      PowZeroBase(p);
      Multiple(0, p);
    } else {
      var y := x - 1;
      FermatLittle(y, p);
      FreshmansDream(y, p);
      var u, v := Pow(x, p) - Pow(y, p) - 1, Pow(y, p) - y;
      Combination(u, v, 1, 1, p);
      assert 1 * u + 1 * v == Pow(x, p) - x;
    }
  }

  /** ... and for 0 < a < p, a^(p - 1) leaves remainder 1: every such witness passes the Fermat test
      of a prime. */
  lemma FermatLittleUnit(a: nat, p: nat)
    requires IsPrime(p) && 0 < a < p
    ensures Pow(a, p - 1) % p == 1
  {
    FermatLittle(a, p);
    assert Pow(a, p) - a == a * (Pow(a, p - 1) - 1);
    PrimeDividesFactor(p, a, Pow(a, p - 1) - 1);
    var q := (Pow(a, p - 1) - 1) / p;
    ModUnique(Pow(a, p - 1), p, q, 1);
  }
}

=== FILE: text.dfy ===
/** String building blocks used by the rendering helpers of encode_view.py:
    Python's `sep.join`, `str.split` on one character, `str.ljust` and `c * n`. */
module Text {

  /** `sep.join(parts)`: the parts in order with `sep` between neighbours. */
  function Join(sep: string, parts: seq<string>): string
    decreases |parts|
  {
    if |parts| == 0 then ""
    else if |parts| == 1 then parts[0]
    else parts[0] + sep + Join(sep, parts[1..])
  }

  /** `s.split(c)`: the maximal pieces of s between occurrences of c, empty pieces included. */
  function Split(s: string, c: char): (parts: seq<string>)
    ensures |parts| >= 1
    decreases |s|
  {
    if |s| == 0 then [""]
    else
      var rest := Split(s[1..], c);
      if s[0] == c then [""] + rest
      else [[s[0]] + rest[0]] + rest[1..]
  }

  /** `c * n`. */
  function Repeat(c: char, n: nat): (r: string)
    ensures |r| == n
    ensures forall k :: 0 <= k < n ==> r[k] == c
  {
    seq(n, _ => c)
  }

  /** `s.ljust(w)`: s followed by enough spaces to reach width w. */
  function PadRight(s: string, w: nat): (r: string)
    ensures |r| == if |s| >= w then |s| else w
    ensures r[..|s|] == s
    ensures forall k :: |s| <= k < |r| ==> r[k] == ' '
  {
    if |s| >= w then s else s + Repeat(' ', w - |s|)
  }

  function Sum(xs: seq<nat>): nat
  {
    if |xs| == 0 then 0 else xs[0] + Sum(xs[1..])
  }

  function Lengths(parts: seq<string>): (ls: seq<nat>)
    ensures |ls| == |parts|
    ensures forall k :: 0 <= k < |parts| ==> ls[k] == |parts[k]|
  {
    seq(|parts|, k requires 0 <= k < |parts| => |parts[k]|)
  }

  // ---------------------------------------------------------------------------
  // Join

  lemma JoinCons(sep: string, x: string, rest: seq<string>)
    requires |rest| > 0
    ensures Join(sep, [x] + rest) == x + sep + Join(sep, rest)
  {
    assert ([x] + rest)[1..] == rest;
  }

  /** The length of a join: the parts' lengths plus one separator between each neighbouring pair. */
  lemma {:induction false} JoinLength(sep: string, parts: seq<string>)
    requires |parts| > 0
    ensures |Join(sep, parts)| == Sum(Lengths(parts)) + |sep| * (|parts| - 1)
    decreases |parts|
  {
    if |parts| > 1 {
      JoinLength(sep, parts[1..]);
      assert Lengths(parts)[1..] == Lengths(parts[1..]);
    }
  }

  lemma SliceAfterPrefix(x: string, y: string, i: nat, j: nat)
    requires |x| <= i <= j <= |x| + |y|
    ensures (x + y)[i..j] == y[i - |x| .. j - |x|]
  {
  }

  /** Joining parts of a common width w with a one-character separator gives (w + 1) characters per part,
      less one. */
  lemma {:induction false} JoinUniformLength(parts: seq<string>, c: char, w: nat)
    requires |parts| > 0
    requires forall j :: 0 <= j < |parts| ==> |parts[j]| == w
    ensures |Join([c], parts)| == (w + 1) * |parts| - 1
    decreases |parts|
  {
    if |parts| > 1 {
      JoinUniformLength(parts[1..], c, w);
      assert (w + 1) * |parts| == (w + 1) + (w + 1) * (|parts| - 1);
    }
  }

  lemma MulSplit(a: nat, b: nat, d: nat)
    ensures a * (b + d) == a * b + a * d
  {
  }

  lemma SlotBounds(w: nat, k: nat, n: nat)
    requires k < n
    ensures (w + 1) * k + w <= (w + 1) * n - 1
    ensures k + 1 < n ==> (w + 1) * k + w < (w + 1) * n - 1
  {
    var m := n - k - 1;
    MulSplit(w + 1, k + 1, m);
    MulSplit(w + 1, k, 1);
    assert (w + 1) * m >= 0;
    if k + 1 < n {
      MulSplit(w + 1, 1, m - 1);
    }
  }

  /** ... and puts part k at offset k * (w + 1), followed by the separator unless it is the last part. */
  lemma {:induction false} JoinUniformSlots(parts: seq<string>, c: char, w: nat, k: nat)
    requires forall j :: 0 <= j < |parts| ==> |parts[j]| == w
    requires k < |parts|
    ensures (w + 1) * k + w <= |Join([c], parts)|
    ensures k + 1 < |parts| ==> (w + 1) * k + w < |Join([c], parts)|
    ensures Join([c], parts)[(w + 1) * k .. (w + 1) * k + w] == parts[k]
    ensures k + 1 < |parts| ==> Join([c], parts)[(w + 1) * k + w] == c
    decreases |parts|
  {
    JoinUniformLength(parts, c, w);
    SlotBounds(w, k, |parts|);
    if |parts| == 1 {
      assert Join([c], parts) == parts[0];
    } else {
      var rest := parts[1..];
      var head := parts[0] + [c];
      var s := Join([c], parts);
      assert s == head + Join([c], rest);
      if k == 0 {
        assert s[..w] == parts[0];
      } else {
        JoinUniformSlots(rest, c, w, k - 1);
        var o := (w + 1) * k;
        assert o == (w + 1) + (w + 1) * (k - 1);
        SliceAfterPrefix(head, Join([c], rest), o, o + w);
      }
    }
  }

  // ---------------------------------------------------------------------------
  // Split and its relation to Join

  /** Splitting never yields a piece that contains the separator. */
  lemma {:induction false} SplitPiecesAvoidSeparator(s: string, c: char)
    ensures forall k :: 0 <= k < |Split(s, c)| ==> c !in Split(s, c)[k]
    decreases |s|
  {
    if |s| > 0 {
      SplitPiecesAvoidSeparator(s[1..], c);
    }
  }

  lemma {:induction false} SplitPrefix(t: string, u: string, c: char)
    requires c !in t
    ensures Split(t + u, c) == [t + Split(u, c)[0]] + Split(u, c)[1..]
    decreases |t|
  {
    if |t| == 0 {
      assert t + u == u;
      assert t + Split(u, c)[0] == Split(u, c)[0];
      assert Split(u, c) == [Split(u, c)[0]] + Split(u, c)[1..];
    } else {
      assert (t + u)[1..] == t[1..] + u;
      assert t[0] != c && (t + u)[0] == t[0];
      SplitPrefix(t[1..], u, c);
      assert [t[0]] + (t[1..] + Split(u, c)[0]) == t + Split(u, c)[0];
    }
  }

  /** Splitting a join on its one-character separator recovers the parts, when no part contains it. */
  lemma {:induction false} SplitJoin(parts: seq<string>, c: char)
    requires |parts| > 0
    requires forall k :: 0 <= k < |parts| ==> c !in parts[k]
    ensures Split(Join([c], parts), c) == parts
    decreases |parts|
  {
    if |parts| == 1 {
      SplitPrefix(parts[0], "", c);
      assert parts[0] + "" == parts[0];
    } else {
      var rest := Join([c], parts[1..]);
      SplitJoin(parts[1..], c);
      assert ([c] + rest)[1..] == rest && ([c] + rest)[0] == c;
      assert Split([c] + rest, c) == [""] + parts[1..];
      assert c !in parts[0];
      SplitPrefix(parts[0], [c] + rest, c);
      assert Join([c], parts) == parts[0] + ([c] + rest);
      assert parts[0] + "" == parts[0];
      assert parts == [parts[0]] + parts[1..];
    }
  }

  /** Joining the pieces of a split with the separator restores the string. */
  lemma {:induction false} JoinSplit(s: string, c: char)
    ensures Join([c], Split(s, c)) == s
    decreases |s|
  {
    if |s| > 0 {
      var rest := Split(s[1..], c);
      JoinSplit(s[1..], c);
      if s[0] == c {
        JoinCons([c], "", rest);
      } else if |rest| == 1 {
        assert Split(s, c) == [[s[0]] + rest[0]];
      } else {
        JoinCons([c], [s[0]] + rest[0], rest[1..]);
        JoinCons([c], rest[0], rest[1..]);
        assert rest == [rest[0]] + rest[1..];
      }
    }
  }

  // ---------------------------------------------------------------------------
  // Where each part lands in a join

  /** The offset at which part i of a join starts: the parts before it plus one separator after each. */
  function PartOffset(sep: string, parts: seq<string>, i: nat): nat
    requires i <= |parts|
  {
    Sum(Lengths(parts[..i])) + |sep| * i
  }

  lemma PartOffsetStep(sep: string, parts: seq<string>, i: nat)
    requires 0 < i <= |parts|
    ensures PartOffset(sep, parts, i) == |parts[0]| + |sep| + PartOffset(sep, parts[1..], i - 1)
  {
    assert Lengths(parts[..i])[1..] == Lengths(parts[1..][..i - 1]);
    MulSplit(|sep|, 1, i - 1);
  }

  /** Part i of a join sits at its offset, and a separator follows it unless it is the last part. */
  lemma {:induction false} JoinPartAt(sep: string, parts: seq<string>, i: nat)
    requires i < |parts|
    ensures PartOffset(sep, parts, i) + |parts[i]| <= |Join(sep, parts)|
    ensures Join(sep, parts)[PartOffset(sep, parts, i) .. PartOffset(sep, parts, i) + |parts[i]|] == parts[i]
    ensures i + 1 < |parts| ==>
      PartOffset(sep, parts, i) + |parts[i]| + |sep| <= |Join(sep, parts)|
      && Join(sep, parts)[PartOffset(sep, parts, i) + |parts[i]| .. PartOffset(sep, parts, i) + |parts[i]| + |sep|] == sep
    decreases |parts|
  {
    var s := Join(sep, parts);
    if i == 0 {
      assert PartOffset(sep, parts, 0) == 0 by {
        assert parts[..0] == [];
      }
      if |parts| > 1 {
        assert s == parts[0] + sep + Join(sep, parts[1..]);
        assert s[..|parts[0]|] == parts[0];
        assert s[|parts[0]|..|parts[0]| + |sep|] == sep;
      }
    } else {
      var head := parts[0] + sep;
      var tail := Join(sep, parts[1..]);
      assert s == head + tail;
      JoinPartAt(sep, parts[1..], i - 1);
      PartOffsetStep(sep, parts, i);
      var o := PartOffset(sep, parts, i);
      SliceAfterPrefix(head, tail, o, o + |parts[i]|);
      if i + 1 < |parts| {
        SliceAfterPrefix(head, tail, o + |parts[i]|, o + |parts[i]| + |sep|);
      }
    }
  }

  /** A join contains a character only if a part or the separator does. */
  lemma {:induction false} JoinAvoids(sep: string, parts: seq<string>, c: char)
    requires c !in sep
    requires forall k :: 0 <= k < |parts| ==> c !in parts[k]
    ensures c !in Join(sep, parts)
    decreases |parts|
  {
    if |parts| > 1 {
      JoinAvoids(sep, parts[1..], c);
    }
  }
}

=== FILE: wrappers.dfy ===
/** Failure-carrying results shared by the other modules. */
module Wrappers {

  datatype Option<+T> = None | Some(value: T)

  /** The outcome of an operation that may raise an exception in the Python program. */
  datatype Result<+T, +E> = Ok(value: T) | Err(error: E)
}
